=== FILE: README.md ===
# Board-recognition core of the 四国军棋 dashboard, in Dafny

This project models the pure logic of a screen-reading assistant for the
four-player army-chess game 四国军棋. The assistant finds pieces on a
screenshot by template matching. It then:

- thins out overlapping hits with greedy non-maximum suppression (NMS);
- calibrates the five board zones (左侧, 右侧, 上方, 下方 and the derived 中央)
  from the hit centres;
- places hits on grid cells to build a preliminary board state;
- converts analyzer reports into board snapshots, computes the board region
  of interest (ROI), locks the zone map once, and draws a theoretical grid
  per zone;
- steps the match and NMS thresholds with ▲/▼ buttons;
- renders reports and game events as tagged lines in an information panel.

Every piece is a pure function over immutable data. Pixel boxes have
integer corners. IoU, confidences and centres are `real`. Thresholds are
integer tenths. The Tk text widget is the sequence of `(text, tag)`
segments inserted into it.

| file | module | models |
|---|---|---|
| options.dfy | `Options` | `Option` for missing keys and falsy results |
| decimal.dfy | `Decimal` | decimal rendering and parsing of naturals (`temp_k`, `{x:.1f}`) |
| geometry.dfy | `Geometry` | detections, `bbox`, intersection, union and IoU |
| suppression.dfy | `Suppression` | `standard_non_max_suppression` |
| calibration.dfy | `Calibration` | `get_player_regions` around KMeans |
| board.dfy | `Board` | the `Piece` and `BoardState` records |
| preliminary.dfy | `Preliminary` | the preliminary-state loop of `analyze_screenshot` |
| report.dfy | `Report` | the report dictionary and game events, as datatypes |
| sequences.dfy | `Sequences` | concatenating per-element output (`FlatMap`) |
| dashboard.dfy | `Dashboard` | `dict_to_board_state`, `_calculate_board_roi`, region locking, theoretical grid |
| thresholds.dfy | `Thresholds` | `ThresholdManager` |
| logger.dfy | `Logger` | `LogManager` (also repeated in `DashboardApp`) |

## Model

| member | source | states |
|---|---|---|
| Geometry.BBox | game_analyzer.py:60-66 | The box starts at the hit's location. Its width is `shape[1]` and its height `shape[0]`, so `x2 = x1 + w` and `y2 = y1 + h`. It is well formed, and its area is `h * w`. |
| Geometry.Intersection | game_analyzer.py:199-201 | The shared area is never negative. It is positive iff the two boxes' spans overlap strictly on both axes, so disjoint boxes share nothing. |
| Geometry.Union | game_analyzer.py:202-204 | For well-formed boxes the union is at least the larger box's area and at most the two areas together. |
| Geometry.IoU | game_analyzer.py:205 | When the union is positive, IoU times the union is exactly the shared area. IoU is 0 iff the boxes share nothing or the union is not positive. |
| Geometry.IoUSymmetric | game_analyzer.py:199-205 | IoU does not depend on which box is `best`. |
| Geometry.IoUInUnitRange | game_analyzer.py:199-205 | For well-formed boxes IoU is a ratio in [0, 1], because the intersection is at most the union. |
| Geometry.IntersectionBounded | game_analyzer.py:199-201 | The shared area is non-negative and at most either box's area. |
| Geometry.IoUSelf | game_analyzer.py:199-205 | A box of positive area overlaps itself with IoU exactly 1. |
| Suppression.SortByConfidence | game_analyzer.py:192 | The result is sorted by descending confidence and is a permutation of the input. For every confidence value, the hits with that value keep their input order (a stable sort). |
| Suppression.InsertStable | game_analyzer.py:192 | An inserted hit goes in front of every equal-confidence hit of the sorted tail. It comes before that tail in the input, so this is the stable order. |
| Suppression.SortSortedIsIdentity | game_analyzer.py:192 | Sorting an already sorted list leaves it unchanged. |
| Suppression.Survivors | game_analyzer.py:197-207 | A hit survives a round exactly when its IoU with the kept head is strictly below the threshold. |
| Suppression.SurvivorsSubsequence | game_analyzer.py:197-207 | Survivors keep their relative order, so a sorted list stays sorted. |
| Suppression.Greedy | game_analyzer.py:194-207 | Keeps the head. Any two kept hits have IoU below the threshold. Only input hits are kept. Sortedness is preserved. |
| Suppression.NonMaxSuppression | game_analyzer.py:190-208 | Empty output iff empty input. Kept hits come from the input and are sorted. Kept hits are pairwise below the threshold. The first kept hit has the maximal confidence. |
| Suppression.NmsIsSubsequenceOfSorted | game_analyzer.py:191-196 | The output is a subsequence of the stable-sorted input. |
| Suppression.NmsCoversDropped | game_analyzer.py:192-207 | Every dropped hit has IoU at or above the threshold with a kept hit of at least its confidence. That kept hit comes before the dropped one in the stable-sorted input. |
| Suppression.GreedyDropsByEarlier | game_analyzer.py:194-207 | Over a list taken in order, each hit the loop drops overlaps, at or above the threshold, a kept hit at an earlier position. |
| Suppression.NmsIdempotent | game_analyzer.py:190-208 | Suppressing the output again returns it unchanged. |
| Suppression.NmsPairAtThreshold | game_analyzer.py:206 | The keep test is strict. Of two hits whose IoU reaches the threshold only the first is kept; below it both are kept. |
| Suppression.PairwiseBelowEitherOrder | game_analyzer.py:199-206 | The pairwise bound holds whichever of the two kept hits is taken first. |
| Suppression.AllDetections | game_analyzer.py:99 | Suppression at 0.3 returns nothing only for no hits. It returns only raw hits, no two with IoU 0.3 or more. Every raw hit left out has IoU at least 0.3 with a returned hit at least as confident. |
| Calibration.LabelOf | game_analyzer.py:150-154 | A centroid is a side zone (左侧/右侧) iff its horizontal offset strictly dominates. 左侧 means left of centre and 右侧 right of it. 上方 means above the centre. 下方 means on or below it. |
| Calibration.LabelTieGoesVertical | game_analyzer.py:151-154 | Equal offsets are labelled 上方 or 下方. |
| Calibration.LabelMirrorHorizontal | game_analyzer.py:150-154 | Mirroring a centroid left-right swaps 左侧 and 右侧 and leaves other labels alone. |
| Calibration.LabelMirrorVertical | game_analyzer.py:150-154 | Mirroring top-bottom, off the centre line, swaps 上方 and 下方 and leaves other labels alone. |
| Calibration.ClusterPoints | game_analyzer.py:158 | A cluster holds every point assigned to it and only such points. It is non-empty iff some point is assigned to it. |
| Calibration.ClusterBox | game_analyzer.py:160-162 | Each edge is `int()` of the coordinate of a point that is extreme in that direction: least x for the left edge, greatest x for the right, and the same for y. The box is well formed. |
| Calibration.ClusterBoxBounds | game_analyzer.py:159-162 | For non-negative points every point lies within the truncated box, up to one past its maximum edge. Each edge is the truncation of some point's coordinate. |
| Calibration.CollectRegions | game_analyzer.py:156-162 | A label is present iff some non-empty cluster carries it. Its box is that of the last such cluster, so later clusters overwrite earlier ones. |
| Calibration.CentreBox | game_analyzer.py:164-169 | The centre box's edges are the max/min of the facing edges of the four outer zones. Each edge is one of the three candidates. |
| Calibration.PlayerRegions | game_analyzer.py:134-171 | Fewer than 4 detections give the empty map. Otherwise the outer zones are the clusters' regions. 中央 is present iff all four outer zones are, with the centre box as its value. |
| Calibration.CentreIffDistinctLabels | game_analyzer.py:149-169 | 中央 appears iff the four clusters are non-empty and carry four different labels. |
| Calibration.AllFourZonesIff | game_analyzer.py:156-164 | The collected regions hold all four outer zones iff every cluster is non-empty and no two clusters share a label. |
| Calibration.ZoneCount | game_analyzer.py:149-169 | A zone map has at most five keys, and five exactly when it has every zone. |
| Preliminary.Placements | game_analyzer.py:109-117 | There is one placement per position whose detection the mapper places. |
| Preliminary.PlacementsAreMapped | game_analyzer.py:109-118 | Exactly the detections the mapper places are kept, with the zone and cell it gives them. There is one placement per mapped detection. Unmapped ones are skipped. |
| Preliminary.PlacementsInOrder | game_analyzer.py:109-121 | Placements follow detection order. The `k`-th placement is the `k`-th mapped detection, counting mapped positions in increasing order. |
| Preliminary.TempIdsFollowDetectionOrder | game_analyzer.py:109-130 | There is one piece per mapped detection. The `k`-th mapped detection is stored as `temp_k`, with id `temp_k`, its name and colour, and the zone and cell the mapper gave it. |
| Preliminary.TempIdDistinct | game_analyzer.py:119 | `temp_a` and `temp_b` differ whenever `a` and `b` do. |
| Preliminary.PreliminaryMeaning | game_analyzer.py:119-130 | There is one piece per placement: placement `k` is stored under `temp_k` and there are no other keys. A cell is occupied iff some placement went there, and it names the last one, whatever its zone. |
| Preliminary.BuildPreliminaryState | game_analyzer.py:102-132 | The loop computes exactly the dictionaries of the placements, and the timestamp is the clock reading passed in. |
| Dashboard.SeatOf | dashboard_main.py:54 | A colour's seat is 中 iff the colour is not one of blue, green, orange or purple. Otherwise it is one of 下, 上, 右, 左. |
| Dashboard.ToPiece | dashboard_main.py:52-63 | The created piece has id `""`, coordinates `(0, 0)`, the entry's name and colour, and the colour's seat. |
| Dashboard.OtherItemsIgnored | dashboard_main.py:47-49 | Inserting an item whose type is not `piece_line` anywhere does not change the entries read. |
| Dashboard.DictToBoardState | dashboard_main.py:40-68 | The pieces are keyed by the distinct entry names, each built from the last entry with that name. Their count is the number of distinct names. Every piece has id `""`, coordinates `(0, 0)` and its key as name. The grid is empty. |
| Dashboard.Hull | dashboard_main.py:273-277 | Every box lies inside the hull, and each side of the hull is the matching side of some box. |
| Dashboard.BoardRoi | dashboard_main.py:268-278 | No ROI iff the regions are absent or empty. Otherwise every region lies inside the ROI, and each ROI side is some region's side. |
| Dashboard.BoardRoiSmallest | dashboard_main.py:273-278 | Any box holding every region holds the ROI. |
| Dashboard.LockStep | dashboard_main.py:329-341 | Locked regions never change. An unlocked state locks a computed map only when it has at least 5 entries, and then the ROI is recomputed from it. |
| Dashboard.LockStepPreservesInv | dashboard_main.py:329-341 | From the initial state on, locked regions hold all five zones with their ROI. Unlocked means no ROI. |
| Dashboard.LockAcceptsCompleteCalibration | dashboard_main.py:333 | A calibrated map has at least 5 entries exactly when it contains 中央. |
| Dashboard.GridShape | dashboard_main.py:558-561 | The grid is 3×3 exactly for 中央 and 6×5 for every other zone. |
| Dashboard.ZoneGridOf | dashboard_main.py:557-581 | Cell sizes are the floor quotients: `cellW * cols <= width < (cellW + 1) * cols`, and likewise for height. The horizontal lines start at `y1` and are `cellH` apart, `rows + 1` of them. The vertical lines start at `x1` and are `cellW` apart, `cols + 1` of them. Cell `k` is row `k / cols`, column `k % cols`. Its centre is half a cell (floor) right of its column's line and below its row's line, and it is labelled `i,j` by its row and column. |
| Dashboard.GridWithinZone | dashboard_main.py:569-581 | On a zone with non-negative width and height, every grid line and every cell centre lies inside the zone. |
| Dashboard.TheoreticalGrid | dashboard_main.py:549-557 | Without locked regions there is nothing. Otherwise there is one grid per locked zone. |
| Thresholds.FormatParseRoundTrip | modules/core/threshold_manager.py:61-64 | The `{:.1f}` text written into an entry reads back as the same number of tenths. |
| Thresholds.InitInv | modules/core/threshold_manager.py:17-18 | Initially match is 0.8 and NMS 0.3, in range, and each entry shows its value. |
| Thresholds.IncreaseMatch | modules/core/threshold_manager.py:59-66 | A press fires iff the entry reads below 0.9. The match value then rises by 0.1 in both the field and the entry, and the callback reports the new value. Otherwise nothing changes. The NMS value is untouched. |
| Thresholds.DecreaseMatch | modules/core/threshold_manager.py:68-75 | The same as the increase, but firing iff the entry reads above 0.5 and subtracting 0.1. |
| Thresholds.IncreaseNms | modules/core/threshold_manager.py:77-84 | The same for NMS, firing below 0.9. The match value is untouched. |
| Thresholds.DecreaseNms | modules/core/threshold_manager.py:86-93 | The same for NMS, firing above 0.1. |
| Thresholds.ThresholdsMatchEntries | modules/core/threshold_manager.py:64-65 | Under the invariant, each entry reads back as its field, and `get_thresholds` returns the values last written. |
| Thresholds.PressPreservesInv | modules/core/threshold_manager.py:59-93 | Every press keeps match in [0.5, 0.9] and NMS in [0.1, 0.9], with field and entry in step. A press changes the state iff it fires its callback. |
| Thresholds.BoundaryIsNoOp | modules/core/threshold_manager.py:62 | At a range end the press changes nothing and fires no callback. The same holds at lines 71, 80 and 89. |
| Thresholds.MatchUpDown | modules/core/threshold_manager.py:59-75 | Below the upper bound, ▲ then ▼ restores the match state. |
| Thresholds.MatchDownUp | modules/core/threshold_manager.py:59-75 | Above the lower bound, ▼ then ▲ restores the match state. |
| Thresholds.NmsUpDown | modules/core/threshold_manager.py:77-93 | Below the upper bound, ▲ then ▼ restores the NMS state. |
| Thresholds.NmsDownUp | modules/core/threshold_manager.py:77-93 | Above the lower bound, ▼ then ▲ restores the NMS state. |
| Thresholds.GetThresholds | modules/core/threshold_manager.py:99-101 | Returns the two fields as the ratios their tenths stand for. |
| Thresholds.Run | modules/core/threshold_manager.py:59-101 | After any sequence of presses the thresholds read by `get_thresholds` lie in their ranges. At most one callback fires per press. |
| Logger.RunHeader | modules/core/logger.py:18-21 | The separator appears iff `recognition_id` is truthy. It is tagged `h_default` and ends a line. It starts with a newline, fifteen `=`, then ` [ `, the id and ` ] (总棋子数: `. |
| Logger.RunHeaderDefaultCount | modules/core/logger.py:19 | A report without `total_count` is headed as one with count 0. |
| Logger.RunHeaderShowsCount | modules/core/logger.py:19-20 | The separator shows the count: two reports with the same separator under the same id have the same `total_count`, a missing one counting as 0. |
| Logger.ClassifyType | modules/core/logger.py:28-46 | A type is unknown iff it is none of header, error, info, piece_line and separator. |
| Logger.MissingTypeIsInfo | modules/core/logger.py:25 | An item without a type renders exactly as an `info` item, tagged `p_cyan`. |
| Logger.ItemSegments | modules/core/logger.py:25-46 | A one-line item is one segment with the header/error/info tag, or none for other types. A piece line has one segment per piece plus a final untagged `"\n"`. Each piece is tagged `eliminated` or its colour tag (default `p_default`), and a piece segment does not end a line. |
| Logger.PieceSegment | modules/core/logger.py:36-41 | A piece segment has the piece's tag. Its text is the piece's text (default `""`) between a two-space indent and one trailing space. |
| Logger.OneLineItemText | modules/core/logger.py:28-46 | A separator emits `"\n"`. Every other one-line item emits its text (default `""`) followed by `"\n"`. |
| Logger.ItemBreaks | modules/core/logger.py:28-46 | Every item, whatever its type, ends exactly one line. |
| Logger.LogToDashboard | modules/core/logger.py:14-49 | The panel is only appended to. One line is added for the separator when present, then one line per item. |
| Logger.ItemsSegmentsAppend | modules/core/logger.py:23-46 | Logging two batches of items one after another shows the same as logging them together. |
| Logger.LogMessage | modules/core/logger.py:51-56 | Appends exactly one segment, with the given tag, whose text is the message followed by a newline. Nothing already shown changes. |
| Logger.LogMessageOneLine | modules/core/logger.py:54 | A message adds exactly one line to the panel. |
| Logger.InfoItemIsCyanMessage | modules/core/logger.py:32-33 | Logging a report holding a single `info` item, without a run header, shows the same as `log_message` with the `p_cyan` tag (line 54). |
| Logger.ClearInfoPanel | modules/core/logger.py:87-91 | The panel is empty afterwards. |
| Logger.ClearThenLog | modules/core/logger.py:87-91 | After a clear, what is shown no longer depends on anything shown before. |
| Logger.EventSegments | modules/core/logger.py:68-83 | The five known event types emit one line with their tag, starting with the type's label. Any other type emits nothing. |
| Logger.EventMessage | modules/core/logger.py:69-82 | An event's message starts with its type's label, then the position of the piece it names first (mover, attacker, first of the pair, bomb or victim) and a space. It ends with `。` for a move and `！` for every other type. |
| Logger.EventLabelsDistinct | modules/core/logger.py:70-82 | Each event type's line starts with its own label (移动, 交战, 互换, 爆炸, 阵亡), and two types share a label only if they are the same type. |
| Logger.EventTagTable | modules/core/logger.py:69-83 | Moves are untagged. Captures and bombs are `p_bold_red`, and trades and landmines are tagged too. |
| Logger.EventsSegmentsCount | modules/core/logger.py:67-83 | One line per event of a known type. |
| Logger.EventsSegmentsAppend | modules/core/logger.py:67-83 | Two batches of events show the same lines as one batch. |
| Logger.LogGameEvents | modules/core/logger.py:58-85 | The panel is only appended to. It gets a header tagged `h_default` that starts with a newline, fifteen `=` and the clock reading in brackets. Then comes either the untagged "棋盘无变化。" line when there are no events, or one line per reported event. Each reported event gets its own line, placed after the lines of the reported events before it, so a capture's line is tagged `p_bold_red`. No segment after the header is tagged `h_default`. |
| Logger.EventLineAt | modules/core/logger.py:67-83 | Event `i`'s line is at the position given by the number of reported events before it. |
| Decimal.ParseNatToString | game_analyzer.py:119 | Decimal rendering of a natural number reads back as that number. This makes `temp_k` ids and `{:.1f}` texts unambiguous. |

## Left out

- Template matching, the process pool and `get_all_detections`' merging of per-colour hits are not modelled. These are OpenCV and multiprocessing calls. The raw hit list is an input of `Suppression.AllDetections`.
- KMeans clustering is not modelled either. It is an external numeric routine, so its assignment and its four centroids are inputs (`Calibration.Clustering`).
- `map_pixel_to_grid`, `PieceTracker`, `GameLogicEngine` and the real `BoardState`/`Piece` classes live in game_model.py, which is not part of this model. The mapper is a function parameter. `Board` defines only the fields the core reads and writes.
- Tk widgets, button wiring, cv2 drawing and `imshow`, win32 window control, and the continuous-recognition thread are left out. They are UI, I/O or concurrency. The grid overlay is modelled as the lines, centres and labels it would draw.
- Reading and writing regions.json are file I/O. Region maps are keyed by the `Zone` datatype, so a file with other keys cannot be expressed.
- The functions in modules/buttons/button_functions.py repeat the dashboard's. They are modelled once, through the dashboard.
- Some call wiring is inconsistent: callers pass an `nms_threshold=` argument the analyzer does not accept, and they treat `analyze_screenshot`'s board state as a report dictionary. These calls would fail, so they are not modelled. The NMS threshold used for detection is the constant 0.3 (`Suppression.IouThreshold`), as in the code.
- `COLOR_TAG_MAP` is a constant table that nothing in the core reads.
- The clocks are parameters: `time.time()` for timestamps and `time.strftime` for run ids and event headers.
- Floats are modelled as exact `real`s. IoU of integer boxes is an exact ratio, and thresholds are integer tenths because `round(x, 1)` keeps them exact.
- Exceptions are not modelled: a failing analyzer call inside the lock step, or an event missing a field. Only the outcomes the code reaches without an exception are modelled.
- Thresholds.IncreaseMatch: entry text that is not a one-decimal number leaves the state unchanged, while Python's `float()` would raise. The entry is read-only and only ever holds the one-decimal text written by the stepper, so this case cannot arise.
- Thresholds.DecreaseMatch: unparseable entry text is a no-op, as for `Thresholds.IncreaseMatch`.
- Thresholds.IncreaseNms: unparseable entry text is a no-op, as for `Thresholds.IncreaseMatch`.
- Thresholds.DecreaseNms: unparseable entry text is a no-op, as for `Thresholds.IncreaseMatch`.
- Logger.LogToDashboard: it states that the panel is only appended to, how many lines are added, and which segment comes first. The exact text of each item is stated per item by `Logger.ItemSegments`.
- Preliminary.BuildPreliminaryState: its ensures equate the loop's dictionaries with the functional definitions `PiecesOf`/`GridOf`. What those dictionaries hold is stated once, in `Preliminary.PreliminaryMeaning`.
- Logger.EventSegments: the message text of each event is built as in the code. The stated properties cover only its label, its tag and the line structure, not the piece and coordinate fields in between.
- Cropping the screenshot to the ROI before analysis is an array slice of an image, so it is not modelled.
- The NMS keep test is `iou < iou_threshold`, so a hit whose IoU equals the threshold is suppressed (`Suppression.NmsPairAtThreshold`).
- A centroid exactly on the vertical centre line can never be labelled 左侧/右侧. Its horizontal offset is 0 and cannot strictly exceed the vertical one, so it falls to 上方 or 下方 (`Calibration.LabelTieGoesVertical`).

=== FILE: board.dfy ===
/** The board records the analyzer fills in.  The tracker's own `Piece` and
    `BoardState` classes are not part of this model; these records carry the
    fields the modelled code reads and writes. */
module Board {

  /** A grid cell `(row, col)` as `map_pixel_to_grid` reports it. */
  type Coords = (int, int)

  datatype Piece = Piece(
    id: string,
    name: string,
    color: string,
    playerPos: string,
    boardCoords: Coords)

  /** A snapshot: pieces by id, and the id occupying each cell. */
  datatype BoardState = BoardState(
    timestamp: real,
    pieces: map<string, Piece>,
    grid: map<Coords, string>)
}

=== FILE: calibration.dfy ===
/** Zone calibration (`get_player_regions` in game_analyzer.py).

    The centres of the detections are clustered into four groups by KMeans,
    which is external here: its assignment of points to clusters and its four
    centroids are inputs.  What is modelled is everything around it: the
    "fewer than four detections" exit, the labelling of each cluster by its
    centroid's offset from the image centre, the truncated min/max box of each
    cluster (a later cluster overwriting an earlier one with the same label),
    and the centre zone derived from the four outer zones' facing edges. */
module Calibration {
  import opened Geometry

  /** 左侧, 右侧, 上方, 下方 and 中央. */
  datatype Zone = Left | Right | Top | Bottom | Centre

  const OuterZones: set<Zone> := {Left, Right, Top, Bottom}
  const AllZones: set<Zone> := {Left, Right, Top, Bottom, Centre}

  predicate HasOuterZones<V>(m: map<Zone, V>) {
    Left in m && Right in m && Top in m && Bottom in m
  }

  type Point = (real, real)
  type Regions = map<Zone, Box>

  /** What KMeans returns: a cluster index per point, and four centroids. */
  datatype Clustering = Clustering(assignment: seq<nat>, centroids: seq<Point>)

  predicate ValidClustering(cl: Clustering, n: nat) {
    && |cl.assignment| == n
    && |cl.centroids| == 4
    && forall k :: 0 <= k < n ==> cl.assignment[k] < 4
  }

  function Abs(r: real): real { if r < 0.0 then -r else r }

  /** Python's `int()` of a float: truncation toward zero. */
  function Trunc(r: real): int {
    if r >= 0.0 then r.Floor else -((-r).Floor)
  }

  /** The centre of a `width` by `height` image. */
  function ImageCentre(width: nat, height: nat): Point {
    (width as real / 2.0, height as real / 2.0)
  }

  /** A centroid is a side zone when its horizontal offset from the image
      centre strictly dominates, and a top/bottom zone otherwise.  The
      comparisons are strict: a centroid on the horizontal centre line is
      下方 unless it is a side zone, and one on the vertical centre line is
      never a side zone. */
  function LabelOf(c: Point, centre: Point): (z: Zone)
    ensures z in OuterZones
    ensures z == Left || z == Right <==> Abs(c.0 - centre.0) > Abs(c.1 - centre.1)
    ensures z == Left ==> c.0 < centre.0
    ensures z == Right ==> c.0 > centre.0
    ensures z == Top ==> c.1 < centre.1
    ensures z == Bottom ==> c.1 >= centre.1
  {
    if Abs(c.0 - centre.0) > Abs(c.1 - centre.1) then
      (if c.0 < centre.0 then Left else Right)
    else
      (if c.1 < centre.1 then Top else Bottom)
  }

  function Swap(z: Zone): Zone {
    match z
    case Left => Right
    case Right => Left
    case Top => Bottom
    case Bottom => Top
    case Centre => Centre
  }

  /** Mirroring a centroid left-right across the image centre swaps 左侧 and
      右侧 and leaves every other label alone. */
  lemma LabelMirrorHorizontal(c: Point, centre: Point)
    ensures var z := LabelOf(c, centre);
            LabelOf((2.0 * centre.0 - c.0, c.1), centre) == (if z == Left || z == Right then Swap(z) else z)
  {
  }

  /** Mirroring top-bottom swaps 上方 and 下方, except on the horizontal
      centre line itself, where the tie goes to 下方 both ways. */
  lemma LabelMirrorVertical(c: Point, centre: Point)
    requires c.1 != centre.1
    ensures var z := LabelOf(c, centre);
            LabelOf((c.0, 2.0 * centre.1 - c.1), centre) == (if z == Top || z == Bottom then Swap(z) else z)
  {
  }

  /** Equal offsets are labelled by the vertical rule. */
  lemma LabelTieGoesVertical(c: Point, centre: Point)
    requires Abs(c.0 - centre.0) == Abs(c.1 - centre.1)
    ensures LabelOf(c, centre) == (if c.1 < centre.1 then Top else Bottom)
  {
  }

  /** The centres of the detections, in detection order. */
  function Points(dets: seq<Detection>): (ps: seq<Point>)
    ensures |ps| == |dets|
    ensures forall k :: 0 <= k < |dets| ==> ps[k] == Midpoint(BBox(dets[k]))
  {
    seq(|dets|, k requires 0 <= k < |dets| => Midpoint(BBox(dets[k])))
  }

  /** `points[kmeans.labels_ == i]`. */
  function ClusterPoints(ps: seq<Point>, assign: seq<nat>, i: nat): (r: seq<Point>)
    requires |assign| == |ps|
    ensures forall p :: p in r ==> exists k :: 0 <= k < |ps| && assign[k] == i && ps[k] == p
    ensures forall k :: 0 <= k < |ps| && assign[k] == i ==> ps[k] in r
    ensures r != [] <==> exists k :: 0 <= k < |ps| && assign[k] == i
    decreases |ps|
  {
    if ps == [] then []
    else
      var rest := ClusterPoints(ps[1..], assign[1..], i);
      assert forall k :: 1 <= k < |ps| ==> assign[1..][k - 1] == assign[k] && ps[1..][k - 1] == ps[k];
      (if assign[0] == i then [ps[0]] else []) + rest
  }

  function MinOf(xs: seq<real>): (m: real)
    requires xs != []
    ensures m in xs
    ensures forall x :: x in xs ==> m <= x
    decreases |xs|
  {
    if |xs| == 1 then xs[0]
    else
      var m := MinOf(xs[1..]);
      assert forall x :: x in xs ==> x == xs[0] || x in xs[1..];
      if xs[0] <= m then xs[0] else m
  }

  function MaxOf(xs: seq<real>): (m: real)
    requires xs != []
    ensures m in xs
    ensures forall x :: x in xs ==> x <= m
    decreases |xs|
  {
    if |xs| == 1 then xs[0]
    else
      var m := MaxOf(xs[1..]);
      assert forall x :: x in xs ==> x == xs[0] || x in xs[1..];
      if xs[0] >= m then xs[0] else m
  }

  function Xs(ps: seq<Point>): (xs: seq<real>)
    ensures |xs| == |ps|
    ensures forall k :: 0 <= k < |ps| ==> xs[k] == ps[k].0
  {
    seq(|ps|, k requires 0 <= k < |ps| => ps[k].0)
  }

  function Ys(ps: seq<Point>): (ys: seq<real>)
    ensures |ys| == |ps|
    ensures forall k :: 0 <= k < |ps| ==> ys[k] == ps[k].1
  {
    seq(|ps|, k requires 0 <= k < |ps| => ps[k].1)
  }

  /** `(int(min_x), int(min_y), int(max_x), int(max_y))` of a cluster: each
      edge is the truncation of a coordinate of some point that is extreme
      in that direction, so the box is well-formed. */
  function ClusterBox(ps: seq<Point>): (b: Box)
    requires ps != []
    ensures exists i :: (0 <= i < |ps| && b.x1 == Trunc(ps[i].0) &&
      forall k :: 0 <= k < |ps| ==> ps[i].0 <= ps[k].0)
    ensures exists i :: (0 <= i < |ps| && b.x2 == Trunc(ps[i].0) &&
      forall k :: 0 <= k < |ps| ==> ps[k].0 <= ps[i].0)
    ensures exists i :: (0 <= i < |ps| && b.y1 == Trunc(ps[i].1) &&
      forall k :: 0 <= k < |ps| ==> ps[i].1 <= ps[k].1)
    ensures exists i :: (0 <= i < |ps| && b.y2 == Trunc(ps[i].1) &&
      forall k :: 0 <= k < |ps| ==> ps[k].1 <= ps[i].1)
    ensures WellFormed(b)
  {
    var xs, ys := Xs(ps), Ys(ps);
    assert forall k :: 0 <= k < |ps| ==> xs[k] in xs && ys[k] in ys;
    TruncMonotone(MinOf(xs), MaxOf(xs));
    TruncMonotone(MinOf(ys), MaxOf(ys));
    Box(Trunc(MinOf(xs)), Trunc(MinOf(ys)), Trunc(MaxOf(xs)), Trunc(MaxOf(ys)))
  }

  /** Truncation toward zero keeps order. */
  lemma TruncMonotone(a: real, b: real)
    requires a <= b
    ensures Trunc(a) <= Trunc(b)
  {
    if b < 0.0 {
      assert (-b).Floor <= (-a).Floor;
    }
  }

  predicate NonNegative(ps: seq<Point>) {
    forall k :: 0 <= k < |ps| ==> ps[k].0 >= 0.0 && ps[k].1 >= 0.0
  }

  /** For points in the image (non-negative coordinates) the cluster box holds
      every point's pixel: each coordinate lies between the truncated minimum
      and one past the truncated maximum, and each edge is the truncation of
      some point's coordinate. */
  lemma ClusterBoxBounds(ps: seq<Point>)
    requires ps != [] && NonNegative(ps)
    ensures var b := ClusterBox(ps);
            forall k :: 0 <= k < |ps| ==>
              && b.x1 as real <= ps[k].0 < (b.x2 + 1) as real
              && b.y1 as real <= ps[k].1 < (b.y2 + 1) as real
    ensures var b := ClusterBox(ps);
            && (exists k :: 0 <= k < |ps| && Trunc(ps[k].0) == b.x1)
            && (exists k :: 0 <= k < |ps| && Trunc(ps[k].0) == b.x2)
            && (exists k :: 0 <= k < |ps| && Trunc(ps[k].1) == b.y1)
            && (exists k :: 0 <= k < |ps| && Trunc(ps[k].1) == b.y2)
  {
  }

  /** The outer label of each of the four clusters. */
  function Labels(cl: Clustering, centre: Point): (ls: seq<Zone>)
    requires |cl.centroids| == 4
    ensures |ls| == 4
    ensures forall i :: 0 <= i < 4 ==> ls[i] == LabelOf(cl.centroids[i], centre) && ls[i] in OuterZones
  {
    seq(4, i requires 0 <= i < 4 => LabelOf(cl.centroids[i], centre))
  }

  /** The points of each of the four clusters. */
  function Clusters(ps: seq<Point>, cl: Clustering): (cs: seq<seq<Point>>)
    requires ValidClustering(cl, |ps|)
    ensures |cs| == 4
    ensures forall i :: 0 <= i < 4 ==> cs[i] == ClusterPoints(ps, cl.assignment, i)
  {
    seq(4, i requires 0 <= i < 4 => ClusterPoints(ps, cl.assignment, i))
  }

  /** Cluster `i` is the one whose box ends up under label `z` after the
      first `n` clusters: it is non-empty, labelled `z`, and no later
      non-empty cluster before `n` has that label. */
  predicate Owner(cs: seq<seq<Point>>, ls: seq<Zone>, n: nat, z: Zone, i: nat)
    requires |cs| == |ls| && n <= |cs|
  {
    && i < n
    && cs[i] != []
    && ls[i] == z
    && forall k :: i < k < n && cs[k] != [] ==> ls[k] != z
  }

  /** The index of the last non-empty cluster before `n` labelled `z`, or
      -1 when there is none. */
  function LastCluster(cs: seq<seq<Point>>, ls: seq<Zone>, n: nat, z: Zone): (i: int)
    requires |cs| == |ls| && n <= |cs|
    ensures -1 <= i < n
    ensures i >= 0 ==> Owner(cs, ls, n, z, i)
    ensures i < 0 ==> forall k :: 0 <= k < n && cs[k] != [] ==> ls[k] != z
    decreases n
  {
    if n == 0 then -1
    else if cs[n - 1] != [] && ls[n - 1] == z then n - 1
    else LastCluster(cs, ls, n - 1, z)
  }

  /** The `for i in range(4)` loop over the first `n` clusters, cluster `i`
      with points `cs[i]` and label `ls[i]`: each label present holds the box
      of the last non-empty cluster carrying it. */
  function CollectRegions(cs: seq<seq<Point>>, ls: seq<Zone>, n: nat): (m: Regions)
    requires |cs| == |ls| && n <= |cs|
    ensures forall z :: z in m <==> LastCluster(cs, ls, n, z) >= 0
    ensures forall z :: z in m ==> m[z] == ClusterBox(cs[LastCluster(cs, ls, n, z)])
    decreases n
  {
    if n == 0 then map[]
    else
      var m := CollectRegions(cs, ls, n - 1);
      if cs[n - 1] != [] then m[ls[n - 1] := ClusterBox(cs[n - 1])] else m
  }

  /** The regions the four clusters produce before the centre is added. */
  function OuterRegions(dets: seq<Detection>, width: nat, height: nat, cl: Clustering): (m: Regions)
    requires ValidClustering(cl, |dets|)
    ensures m.Keys <= OuterZones
    ensures |m| == 4 <==> m.Keys == OuterZones
  {
    var cs := Clusters(Points(dets), cl);
    var ls := Labels(cl, ImageCentre(width, height));
    OuterKeys(cs, ls);
    OuterCount(CollectRegions(cs, ls, 4).Keys);
    CollectRegions(cs, ls, 4)
  }

  function Max3(a: int, b: int, c: int): int { Max(a, Max(b, c)) }
  function Min3(a: int, b: int, c: int): int { Min(a, Min(b, c)) }

  /** The centre zone: bounded by the left zone's right edge, the right
      zone's left edge, the top zone's bottom edge and the bottom zone's top
      edge, narrowed further by the other two zones' spans. */
  function CentreBox(m: Regions): (b: Box)
    requires HasOuterZones(m)
    ensures b.x1 >= m[Left].x2 && b.x1 >= m[Top].x1 && b.x1 >= m[Bottom].x1
    ensures b.x2 <= m[Right].x1 && b.x2 <= m[Top].x2 && b.x2 <= m[Bottom].x2
    ensures b.y1 >= m[Top].y2 && b.y1 >= m[Left].y1 && b.y1 >= m[Right].y1
    ensures b.y2 <= m[Bottom].y1 && b.y2 <= m[Left].y2 && b.y2 <= m[Right].y2
    ensures b.x1 in {m[Left].x2, m[Top].x1, m[Bottom].x1}
    ensures b.x2 in {m[Right].x1, m[Top].x2, m[Bottom].x2}
    ensures b.y1 in {m[Top].y2, m[Left].y1, m[Right].y1}
    ensures b.y2 in {m[Bottom].y1, m[Left].y2, m[Right].y2}
  {
    Box(
      Max3(m[Left].x2, m[Top].x1, m[Bottom].x1),
      Max3(m[Top].y2, m[Left].y1, m[Right].y1),
      Min3(m[Right].x1, m[Top].x2, m[Bottom].x2),
      Min3(m[Bottom].y1, m[Left].y2, m[Right].y2))
  }

  lemma {:induction false} SubsetCard<T>(a: set<T>, b: set<T>)
    requires a <= b
    ensures |a| <= |b|
    decreases |b|
  {
    if b != {} {
      var x :| x in b;
      SubsetCard(a - {x}, b - {x});
    }
  }

  /** A set of outer zones has four elements exactly when it is all of them. */
  lemma OuterCount(s: set<Zone>)
    requires s <= OuterZones
    ensures |s| == 4 <==> s == OuterZones
  {
    assert |OuterZones| == 4;
    if s != OuterZones {
      var z :| z in OuterZones && z !in s;
      SubsetCard(s, OuterZones - {z});
    }
  }

  /** A set of zones has at most five elements, five exactly when it is all. */
  lemma ZoneCount(s: set<Zone>)
    ensures |s| <= 5
    ensures |s| >= 5 <==> s == AllZones
  {
    assert s <= AllZones by {
      forall z | z in s ensures z in AllZones {
        match z
        case Left => case Right => case Top => case Bottom => case Centre =>
      }
    }
    assert |AllZones| == 5;
    SubsetCard(s, AllZones);
    if s != AllZones {
      var z :| z in AllZones && z !in s;
      SubsetCard(s, AllZones - {z});
    }
  }

  /** The zone rectangles calibrated from one frame's detections.  With
      fewer than four detections nothing is calibrated; the clustering is
      only consulted otherwise. */
  function PlayerRegions(dets: seq<Detection>, width: nat, height: nat, cl: Clustering): (r: Regions)
    requires |dets| >= 4 ==> ValidClustering(cl, |dets|)
    ensures |dets| < 4 ==> r == map[]
    ensures |dets| >= 4 ==> r - {Centre} == OuterRegions(dets, width, height, cl)
    ensures Centre in r <==> |dets| >= 4 && HasOuterZones(r)
    ensures Centre in r ==> r[Centre] == CentreBox(r - {Centre})
  {
    if |dets| < 4 then map[]
    else
      var m := OuterRegions(dets, width, height, cl);
      AddCentre(m);
      if |m| == 4 then m[Centre := CentreBox(m)] else m
  }

  lemma AddCentre(m: Regions)
    requires m.Keys <= OuterZones
    requires |m| == 4 <==> m.Keys == OuterZones
    ensures m - {Centre} == m
    ensures Centre !in m
    ensures HasOuterZones(m) <==> |m| == 4
    ensures |m| == 4 ==> m[Centre := CentreBox(m)] - {Centre} == m
    ensures |m| == 4 ==> HasOuterZones(m[Centre := CentreBox(m)])
  {
  }

  /** Exactly the labels of the non-empty clusters are produced. */
  lemma OuterKeys(cs: seq<seq<Point>>, ls: seq<Zone>)
    requires |cs| == |ls| == 4
    requires forall i :: 0 <= i < 4 ==> ls[i] in OuterZones
    ensures CollectRegions(cs, ls, 4).Keys <= OuterZones
    ensures CollectRegions(cs, ls, 4).Keys == set i | 0 <= i < 4 && cs[i] != [] :: ls[i]
  {
    var m := CollectRegions(cs, ls, 4);
    forall z | z in m ensures z in OuterZones && exists i :: 0 <= i < 4 && cs[i] != [] && ls[i] == z {
      var i := LastCluster(cs, ls, 4, z);
      assert Owner(cs, ls, 4, z, i);
    }
    forall i | 0 <= i < 4 && cs[i] != [] ensures ls[i] in m {
      assert LastCluster(cs, ls, 4, ls[i]) >= 0;
    }
  }

  /** Each outer zone holds the box of the last non-empty cluster carrying
      its label: on a collision the later cluster overwrites the earlier. */
  lemma OuterZoneIsLastCluster(dets: seq<Detection>, width: nat, height: nat, cl: Clustering, z: Zone)
    requires |dets| >= 4 && ValidClustering(cl, |dets|)
    requires z in PlayerRegions(dets, width, height, cl) && z != Centre
    ensures var cs := Clusters(Points(dets), cl);
            var ls := Labels(cl, ImageCentre(width, height));
            exists i: nat :: Owner(cs, ls, 4, z, i) && PlayerRegions(dets, width, height, cl)[z] == ClusterBox(cs[i])
  {
    var cs := Clusters(Points(dets), cl);
    var ls := Labels(cl, ImageCentre(width, height));
    var r := PlayerRegions(dets, width, height, cl);
    assert z in r - {Centre};
    var i := LastCluster(cs, ls, 4, z);
    assert Owner(cs, ls, 4, z, i);
  }

  lemma Card3<T>(a: T, b: T, c: T)
    ensures |{a, b, c}| <= 3
  {
  }

  /** A collision or an empty cluster leaves at most three labels in use. */
  lemma {:induction false} FewerLabels(cs: seq<seq<Point>>, ls: seq<Zone>)
    requires |cs| == |ls| == 4
    requires (exists i :: 0 <= i < 4 && cs[i] == []) || (exists i, j :: 0 <= i < j < 4 && ls[i] == ls[j])
    ensures |set i | 0 <= i < 4 && cs[i] != [] :: ls[i]| <= 3
  {
    var used := set i | 0 <= i < 4 && cs[i] != [] :: ls[i];
    var skip: nat;
    if exists i :: 0 <= i < 4 && cs[i] == [] {
      skip :| skip < 4 && cs[skip] == [];
    } else {
      var i, j :| 0 <= i < j < 4 && ls[i] == ls[j];
      skip := i;
    }
    var a, b, c := if skip == 0 then 1 else 0, if skip <= 1 then 2 else 1, if skip <= 2 then 3 else 2;
    assert used <= {ls[a], ls[b], ls[c]};
    Card3(ls[a], ls[b], ls[c]);
    SubsetCard(used, {ls[a], ls[b], ls[c]});
  }

  /** The four labels in use are all four outer zones exactly when every
      cluster is non-empty and no two clusters share a label. */
  lemma FourLabelsIff(cs: seq<seq<Point>>, ls: seq<Zone>)
    requires |cs| == |ls| == 4
    requires forall i :: 0 <= i < 4 ==> ls[i] in OuterZones
    ensures (set i | 0 <= i < 4 && cs[i] != [] :: ls[i]) == OuterZones <==>
              && (forall i :: 0 <= i < 4 ==> cs[i] != [])
              && (forall i, j :: 0 <= i < j < 4 ==> ls[i] != ls[j])
  {
    var used := set i | 0 <= i < 4 && cs[i] != [] :: ls[i];
    assert used <= OuterZones;
    if (forall i :: 0 <= i < 4 ==> cs[i] != []) && (forall i, j :: 0 <= i < j < 4 ==> ls[i] != ls[j]) {
      assert {ls[0], ls[1], ls[2], ls[3]} <= used;
      assert |{ls[0], ls[1], ls[2], ls[3]}| == 4;
      SubsetCard({ls[0], ls[1], ls[2], ls[3]}, used);
      OuterCount(used);
    } else {
      FewerLabels(cs, ls);
      assert |OuterZones| == 4;
    }
  }

  /** The centre zone appears exactly when the four clusters are non-empty
      and carry four different labels; a label collision means no centre. */
  lemma CentreIffDistinctLabels(dets: seq<Detection>, width: nat, height: nat, cl: Clustering)
    requires |dets| >= 4 && ValidClustering(cl, |dets|)
    ensures var cs := Clusters(Points(dets), cl);
            var ls := Labels(cl, ImageCentre(width, height));
            Centre in PlayerRegions(dets, width, height, cl) <==>
              && (forall i :: 0 <= i < 4 ==> cs[i] != [])
              && (forall i, j :: 0 <= i < j < 4 ==> ls[i] != ls[j])
  {
    var cs := Clusters(Points(dets), cl);
    var ls := Labels(cl, ImageCentre(width, height));
    var r := PlayerRegions(dets, width, height, cl);
    AllFourZonesIff(cs, ls);
    assert HasOuterZones(r) <==> HasOuterZones(r - {Centre});
  }

  /** The collected regions hold all four outer zones exactly when every
      cluster is non-empty and no two share a label. */
  lemma AllFourZonesIff(cs: seq<seq<Point>>, ls: seq<Zone>)
    requires |cs| == |ls| == 4
    requires forall i :: 0 <= i < 4 ==> ls[i] in OuterZones
    ensures HasOuterZones(CollectRegions(cs, ls, 4)) <==>
              && (forall i :: 0 <= i < 4 ==> cs[i] != [])
              && (forall i, j :: 0 <= i < j < 4 ==> ls[i] != ls[j])
  {
    var m := CollectRegions(cs, ls, 4);
    OuterKeys(cs, ls);
    FourLabelsIff(cs, ls);
    assert m.Keys == OuterZones <==> HasOuterZones(m);
  }
}

=== FILE: dashboard.dfy ===
/** The pure parts of dashboard_main.py: turning an analyzer report into a
    board snapshot, the board region of interest, the one-time locking of
    the zone map, and the arithmetic of the theoretical grid overlay. */
module Dashboard {
  import opened Options
  import opened Decimal
  import opened Geometry
  import opened Board
  import opened Report
  import opened Sequences
  import opened Calibration

  // ---------------------------------------------------------------------
  // dict_to_board_state

  const KnownColours: set<string> := {"blue", "green", "orange", "purple"}

  /** The seat a piece colour plays from; any other colour sits at 中. */
  function SeatOf(colour: string): (seat: string)
    ensures seat == "中" <==> colour !in KnownColours
    ensures colour in KnownColours ==> seat in {"下", "上", "右", "左"}
  {
    if colour == "blue" then "下"
    else if colour == "green" then "上"
    else if colour == "orange" then "右"
    else if colour == "purple" then "左"
    else "中"
  }

  /** The four colours sit at four different seats. */
  lemma SeatsDistinct(a: string, b: string)
    requires a in KnownColours && b in KnownColours && a != b
    ensures SeatOf(a) != SeatOf(b)
  {
  }

  function NameOf(info: PieceInfo): string {
    info.pieceName.GetOr("")
  }

  /** The piece created for one entry: no id yet, default coordinates. */
  function ToPiece(info: PieceInfo): (p: Piece)
    ensures p.id == "" && p.boardCoords == (0, 0)
    ensures p.name == NameOf(info) && p.color == info.color.GetOr("")
    ensures p.playerPos == SeatOf(p.color)
  {
    var colour := info.color.GetOr("");
    Piece("", NameOf(info), colour, SeatOf(colour), (0, 0))
  }

  /** The entries an item contributes: its pieces when its type is
      `piece_line`, nothing otherwise. */
  function PieceLineEntries(item: ReportItem): (r: seq<PieceInfo>)
    ensures item.kind != Some("piece_line") ==> r == []
  {
    if item.kind == Some("piece_line") then ItemPieces(item) else []
  }

  /** All entries of all `piece_line` items, in report order. */
  function Entries(items: seq<ReportItem>): seq<PieceInfo> {
    FlatMap(items, PieceLineEntries)
  }

  /** An item of any other type can be added anywhere without changing the
      entries read. */
  lemma OtherItemsIgnored(before: seq<ReportItem>, item: ReportItem, after: seq<ReportItem>)
    requires item.kind != Some("piece_line")
    ensures Entries(before + [item] + after) == Entries(before + after)
  {
    FlatMapAppend(before + [item], after, PieceLineEntries);
    FlatMapAppend(before, [item], PieceLineEntries);
    FlatMapAppend(before, after, PieceLineEntries);
    assert Entries([item]) == PieceLineEntries(item) + Entries([]);
  }

  /** The index of the last entry named `n`, or -1. */
  function LastNamed(infos: seq<PieceInfo>, n: string): (k: int)
    ensures -1 <= k < |infos|
    ensures k >= 0 ==> NameOf(infos[k]) == n && forall j :: k < j < |infos| ==> NameOf(infos[j]) != n
    ensures k < 0 ==> forall j :: 0 <= j < |infos| ==> NameOf(infos[j]) != n
    decreases |infos|
  {
    if infos == [] then -1
    else if NameOf(infos[|infos| - 1]) == n then |infos| - 1
    else LastNamed(infos[..|infos| - 1], n)
  }

  /** `board_state.pieces[piece_name] = piece` over the entries in order. */
  function ByName(infos: seq<PieceInfo>): map<string, Piece>
    decreases |infos|
  {
    if infos == [] then map[]
    else
      var last := infos[|infos| - 1];
      ByName(infos[..|infos| - 1])[NameOf(last) := ToPiece(last)]
  }

  function Names(infos: seq<PieceInfo>): set<string> {
    set i | 0 <= i < |infos| :: NameOf(infos[i])
  }

  /** The names of a sequence of entries are those of its prefix plus the
      last entry's. */
  lemma NamesStep(infos: seq<PieceInfo>)
    requires infos != []
    ensures forall n :: n in Names(infos) <==> n in Names(infos[..|infos| - 1]) || n == NameOf(infos[|infos| - 1])
  {
    var k := |infos| - 1;
    var init := infos[..k];
    forall n ensures n in Names(infos) <==> n in Names(init) || n == NameOf(infos[k]) {
      if n in Names(infos) && n != NameOf(infos[k]) {
        var i :| 0 <= i < |infos| && NameOf(infos[i]) == n;
        assert init[i] == infos[i];
      }
      if n in Names(init) {
        var i :| 0 <= i < |init| && NameOf(init[i]) == n;
        assert infos[i] == init[i];
      }
    }
  }

  /** One piece per distinct name. */
  lemma {:induction false} ByNameKeys(infos: seq<PieceInfo>)
    ensures ByName(infos).Keys == Names(infos)
    decreases |infos|
  {
    if infos != [] {
      ByNameKeys(infos[..|infos| - 1]);
      NamesStep(infos);
    }
  }

  /** Each name's piece is built from the last entry with that name. */
  lemma {:induction false} ByNameValues(infos: seq<PieceInfo>)
    ensures forall n :: n in ByName(infos) ==>
      LastNamed(infos, n) >= 0 && ByName(infos)[n] == ToPiece(infos[LastNamed(infos, n)])
    decreases |infos|
  {
    if infos != [] {
      var k := |infos| - 1;
      var init := infos[..k];
      ByNameValues(init);
      forall n | n in ByName(infos)
        ensures LastNamed(infos, n) >= 0 && ByName(infos)[n] == ToPiece(infos[LastNamed(infos, n)])
      {
        if n != NameOf(infos[k]) {
          assert n in ByName(init);
          var j := LastNamed(init, n);
          assert LastNamed(infos, n) == j;
          assert init[j] == infos[j];
        }
      }
    }
  }

  /** `dict_to_board_state(report)`, with the clock reading as a parameter. */
  function DictToBoardState(report: Report, timestamp: real): (st: BoardState)
    ensures st.timestamp == timestamp && st.grid == map[]
    ensures var infos := Entries(Items(report));
      && st.pieces.Keys == Names(infos)
      && |st.pieces| == |Names(infos)|
      && forall n :: n in st.pieces ==>
           st.pieces[n] == ToPiece(infos[LastNamed(infos, n)])
    ensures forall n :: n in st.pieces ==>
      st.pieces[n].id == "" && st.pieces[n].boardCoords == (0, 0) && st.pieces[n].name == n
  {
    var infos := Entries(Items(report));
    ByNameKeys(infos);
    ByNameValues(infos);
    BoardState(timestamp, ByName(infos), map[])
  }

  // ---------------------------------------------------------------------
  // _calculate_board_roi

  /** The zones in a fixed order, to enumerate a region map. */
  const ZoneList: seq<Zone> := [Left, Right, Top, Bottom, Centre]

  /** The rectangles of a region map, one per zone present. */
  function RectsFrom(m: Regions, zs: seq<Zone>): (r: seq<Box>)
    ensures forall b :: b in r ==> exists z :: z in m && z in zs && m[z] == b
    ensures forall z :: z in m && z in zs ==> m[z] in r
    decreases |zs|
  {
    if zs == [] then []
    else (if zs[0] in m then [m[zs[0]]] else []) + RectsFrom(m, zs[1..])
  }

  function Rects(m: Regions): (r: seq<Box>)
    ensures forall b :: b in r ==> exists z :: z in m && m[z] == b
    ensures forall z :: z in m ==> m[z] in r
    ensures r == [] <==> |m| == 0
  {
    ZoneListComplete();
    NonEmptyHasRect(m);
    RectsFrom(m, ZoneList)
  }

  lemma ZoneListComplete()
    ensures forall z: Zone :: z in ZoneList
  {
    forall z: Zone ensures z in ZoneList {
      match z
      case Left => assert ZoneList[0] == z;
      case Right => assert ZoneList[1] == z;
      case Top => assert ZoneList[2] == z;
      case Bottom => assert ZoneList[3] == z;
      case Centre => assert ZoneList[4] == z;
    }
  }

  lemma NonEmptyHasRect(m: Regions)
    ensures |m| > 0 ==> RectsFrom(m, ZoneList) != []
  {
    if |m| > 0 {
      var z :| z in m;
      ZoneListComplete();
    }
  }

  predicate Inside(inner: Box, outer: Box) {
    outer.x1 <= inner.x1 && outer.y1 <= inner.y1 && inner.x2 <= outer.x2 && inner.y2 <= outer.y2
  }

  /** `(min x1, min y1, max x2, max y2)` over a non-empty list of boxes. */
  function Hull(bs: seq<Box>): (h: Box)
    requires bs != []
    ensures forall b :: b in bs ==> Inside(b, h)
    ensures exists i :: 0 <= i < |bs| && bs[i].x1 == h.x1
    ensures exists i :: 0 <= i < |bs| && bs[i].y1 == h.y1
    ensures exists i :: 0 <= i < |bs| && bs[i].x2 == h.x2
    ensures exists i :: 0 <= i < |bs| && bs[i].y2 == h.y2
    decreases |bs|
  {
    if |bs| == 1 then bs[0]
    else
      var last := bs[|bs| - 1];
      var init := bs[..|bs| - 1];
      var h := Hull(init);
      assert forall b :: b in bs ==> b in init || b == last;
      HullStep(init, last, h);
      Box(Min(h.x1, last.x1), Min(h.y1, last.y1), Max(h.x2, last.x2), Max(h.y2, last.y2))
  }

  /** Extending a hull by one more box keeps every coordinate attained. */
  lemma HullStep(init: seq<Box>, last: Box, h: Box)
    requires exists i :: 0 <= i < |init| && init[i].x1 == h.x1
    requires exists i :: 0 <= i < |init| && init[i].y1 == h.y1
    requires exists i :: 0 <= i < |init| && init[i].x2 == h.x2
    requires exists i :: 0 <= i < |init| && init[i].y2 == h.y2
    ensures var bs := init + [last];
      var g := Box(Min(h.x1, last.x1), Min(h.y1, last.y1), Max(h.x2, last.x2), Max(h.y2, last.y2));
      && (exists i :: 0 <= i < |bs| && bs[i].x1 == g.x1)
      && (exists i :: 0 <= i < |bs| && bs[i].y1 == g.y1)
      && (exists i :: 0 <= i < |bs| && bs[i].x2 == g.x2)
      && (exists i :: 0 <= i < |bs| && bs[i].y2 == g.y2)
  {
    var bs := init + [last];
    var n := |init|;
    assert bs[n] == last;
    var a :| 0 <= a < n && init[a].x1 == h.x1;
    var b :| 0 <= b < n && init[b].y1 == h.y1;
    var c :| 0 <= c < n && init[c].x2 == h.x2;
    var d :| 0 <= d < n && init[d].y2 == h.y2;
    assert bs[a] == init[a] && bs[b] == init[b] && bs[c] == init[c] && bs[d] == init[d];
  }

  /** `_calculate_board_roi`: no ROI without locked regions; otherwise the
      smallest box holding every region, each side taken from a region. */
  function BoardRoi(locked: Option<Regions>): (roi: Option<Box>)
    ensures roi.None? <==> locked.None? || |locked.value| == 0
    ensures roi.Some? ==> forall z :: z in locked.value ==> Inside(locked.value[z], roi.value)
    ensures roi.Some? ==>
      && (exists z :: z in locked.value && locked.value[z].x1 == roi.value.x1)
      && (exists z :: z in locked.value && locked.value[z].y1 == roi.value.y1)
      && (exists z :: z in locked.value && locked.value[z].x2 == roi.value.x2)
      && (exists z :: z in locked.value && locked.value[z].y2 == roi.value.y2)
  {
    match locked
    case None => None
    case Some(m) =>
      if |m| == 0 then None
      else
        HullOfRects(m);
        Some(Hull(Rects(m)))
  }

  /** The ROI is the smallest box holding every region: any box that
      holds them all holds the ROI. */
  lemma BoardRoiSmallest(m: Regions, o: Box)
    requires |m| > 0 && forall z :: z in m ==> Inside(m[z], o)
    ensures BoardRoi(Some(m)).Some? && Inside(BoardRoi(Some(m)).value, o)
  {
    var roi := BoardRoi(Some(m)).value;
    var a :| a in m && m[a].x1 == roi.x1;
    var b :| b in m && m[b].y1 == roi.y1;
    var c :| c in m && m[c].x2 == roi.x2;
    var d :| d in m && m[d].y2 == roi.y2;
    assert Inside(m[a], o) && Inside(m[b], o) && Inside(m[c], o) && Inside(m[d], o);
  }

  lemma HullOfRects(m: Regions)
    requires |m| > 0
    ensures Rects(m) != []
    ensures forall z :: z in m ==> Inside(m[z], Hull(Rects(m)))
    ensures var h := Hull(Rects(m));
      && (exists z :: z in m && m[z].x1 == h.x1)
      && (exists z :: z in m && m[z].y1 == h.y1)
      && (exists z :: z in m && m[z].x2 == h.x2)
      && (exists z :: z in m && m[z].y2 == h.y2)
  {
    var bs := Rects(m);
    var h := Hull(bs);
    var a :| 0 <= a < |bs| && bs[a].x1 == h.x1;
    var b :| 0 <= b < |bs| && bs[b].y1 == h.y1;
    var c :| 0 <= c < |bs| && bs[c].x2 == h.x2;
    var d :| 0 <= d < |bs| && bs[d].y2 == h.y2;
    assert bs[a] in bs && bs[b] in bs && bs[c] in bs && bs[d] in bs;
  }

  // ---------------------------------------------------------------------
  // Region locking in start_recognition

  datatype AppState = AppState(lockedRegions: Option<Regions>, boardRoi: Option<Box>)

  /** The application starts with nothing locked and no ROI. */
  const Initial: AppState := AppState(None, None)

  /** `if not self.app_state.locked_regions`: absent or empty. */
  predicate Locked(s: AppState) {
    s.lockedRegions.Some? && |s.lockedRegions.value| > 0
  }

  /** One recognition run's locking step, given the region map the analyzer
      computed from the screenshot: once locked the regions never change;
      otherwise they are locked only when the map has at least 5 entries,
      and the ROI is recomputed from them. */
  function LockStep(s: AppState, computed: Regions): (r: AppState)
    ensures Locked(s) ==> r == s
    ensures !Locked(s) && |computed| < 5 ==> r == s
    ensures !Locked(s) && |computed| >= 5 ==> Locked(r) && r.lockedRegions.value == computed
    ensures r != s ==> r.boardRoi == BoardRoi(r.lockedRegions)
  {
    if Locked(s) then s
    else if |computed| < 5 then s
    else AppState(Some(computed), BoardRoi(Some(computed)))
  }

  /** What the locking steps keep true from the initial state on: locked
      regions cover all five zones and the ROI is theirs; without them
      there is no ROI. */
  ghost predicate LockInv(s: AppState) {
    && (Locked(s) ==> s.lockedRegions.value.Keys == AllZones && s.boardRoi == BoardRoi(s.lockedRegions))
    && (!Locked(s) ==> s.boardRoi.None?)
  }

  lemma LockStepPreservesInv(s: AppState, computed: Regions)
    requires LockInv(s)
    ensures LockInv(LockStep(s, computed))
  {
    if !Locked(s) && |computed| >= 5 {
      ZoneCount(computed.Keys);
    }
  }

  /** Every zone of a locked map lies inside the ROI. */
  lemma LockedZonesInsideRoi(s: AppState, z: Zone)
    requires LockInv(s) && Locked(s)
    ensures s.boardRoi.Some? && Inside(s.lockedRegions.value[z], s.boardRoi.value)
  {
  }

  /** Locking is one-shot: a later step never replaces locked regions. */
  lemma LockStepIdempotent(s: AppState, c1: Regions, c2: Regions)
    requires |c1| >= 5
    ensures LockStep(LockStep(s, c1), c2) == LockStep(s, c1)
  {
  }

  /** The calibration's map has at least 5 entries exactly when it holds
      the centre zone, so the lock accepts exactly the complete maps. */
  lemma LockAcceptsCompleteCalibration(dets: seq<Detection>, width: nat, height: nat, cl: Clustering)
    requires |dets| >= 4 ==> ValidClustering(cl, |dets|)
    ensures var m := PlayerRegions(dets, width, height, cl);
      |m| >= 5 <==> Centre in m
  {
    var m := PlayerRegions(dets, width, height, cl);
    ZoneCount(m.Keys);
    if Centre in m {
      assert HasOuterZones(m);
      assert m.Keys == AllZones;
    }
  }

  // ---------------------------------------------------------------------
  // visualize_theoretical_grid

  function ZoneName(z: Zone): string {
    match z
    case Left => "左侧"
    case Right => "右侧"
    case Top => "上方"
    case Bottom => "下方"
    case Centre => "中央"
  }

  /** Rows and columns of a zone's grid: the 中央 zone is 3×3, the player
      zones 6×5. */
  function GridShape(z: Zone): (shape: (nat, nat))
    ensures shape.0 > 0 && shape.1 > 0
    ensures z == Centre <==> shape == (3, 3)
    ensures z != Centre <==> shape == (6, 5)
  {
    if ZoneName(z) == "中央" then (3, 3) else (6, 5)
  }

  /** A text drawn at a point. */
  datatype Label = Label(text: string, at: (int, int))

  /** What the overlay draws for one zone: the horizontal lines' `y`, the
      vertical lines' `x`, each cell's centre and its `i,j` label (row-major),
      and the zone caption. */
  datatype ZoneGrid = ZoneGrid(
    rows: nat,
    cols: nat,
    cellW: int,
    cellH: int,
    rowLines: seq<int>,
    colLines: seq<int>,
    centres: seq<(int, int)>,
    labels: seq<Label>,
    caption: Label)

  function CellLabel(i: nat, j: nat, centre: (int, int)): Label {
    Label(IntToString(i) + "," + IntToString(j), (centre.0 - 10, centre.1 + 5))
  }

  /** The centre of row-major cell `k` of a grid of `cols` columns with
      cells `cw` by `ch` from the box's top-left corner. */
  function CellCentre(b: Box, cols: nat, cw: int, ch: int, k: nat): (int, int)
    requires cols > 0
  {
    (b.x1 + (k % cols) * cw + cw / 2, b.y1 + (k / cols) * ch + ch / 2)
  }

  /** `n + 1` evenly spaced line positions from `start`. */
  function Lines(start: int, step: int, n: nat): (r: seq<int>)
    ensures |r| == n + 1
    ensures r[0] == start
    ensures forall i :: 0 <= i < n ==> r[i + 1] == r[i] + step
  {
    seq(n + 1, i => start + i * step)
  }

  function Centres(b: Box, rows: nat, cols: nat, cw: int, ch: int): (r: seq<(int, int)>)
    requires cols > 0
    ensures |r| == rows * cols
  {
    seq(rows * cols, k requires 0 <= k < rows * cols => CellCentre(b, cols, cw, ch, k))
  }

  /** Labels every cell `k` with its row and column, next to its centre. */
  function CellLabels(centres: seq<(int, int)>, cols: nat): (r: seq<Label>)
    requires cols > 0
    ensures |r| == |centres|
    ensures forall k :: 0 <= k < |r| ==> r[k] == CellLabel(k / cols, k % cols, centres[k])
  {
    seq(|centres|, k requires 0 <= k < |centres| => CellLabel(k / cols, k % cols, centres[k]))
  }

  /** The zone's name and grid shape, near its top-left corner. */
  function Caption(z: Zone, rows: nat, cols: nat, b: Box): Label {
    Label(ZoneName(z) + " (" + IntToString(rows) + "x" + IntToString(cols) + ")", (b.x1 + 5, b.y1 + 20))
  }

  function ZoneGridOf(z: Zone, b: Box): (g: ZoneGrid)
    ensures (g.rows, g.cols) == GridShape(z)
    ensures g.cellW * g.cols <= Width(b) < (g.cellW + 1) * g.cols
    ensures g.cellH * g.rows <= Height(b) < (g.cellH + 1) * g.rows
    ensures |g.rowLines| == g.rows + 1 && |g.colLines| == g.cols + 1
    ensures |g.centres| == g.rows * g.cols && |g.labels| == g.rows * g.cols
    ensures forall k :: 0 <= k < |g.labels| ==>
      g.labels[k] == CellLabel(k / g.cols, k % g.cols, g.centres[k])
    ensures g.rowLines[0] == b.y1 &&
      forall i :: 0 <= i < g.rows ==> g.rowLines[i + 1] == g.rowLines[i] + g.cellH
    ensures g.colLines[0] == b.x1 &&
      forall j :: 0 <= j < g.cols ==> g.colLines[j + 1] == g.colLines[j] + g.cellW
    ensures forall k :: 0 <= k < |g.centres| ==> (k / g.cols < g.rows &&
      g.centres[k] == (g.colLines[k % g.cols] + g.cellW / 2, g.rowLines[k / g.cols] + g.cellH / 2))
  {
    var shape := GridShape(z);
    var cw := Width(b) / shape.1;
    var ch := Height(b) / shape.0;
    FloorDiv(Width(b), shape.1);
    FloorDiv(Height(b), shape.0);
    var centres := Centres(b, shape.0, shape.1, cw, ch);
    CentresOnLines(b, shape.0, shape.1, cw, ch);
    ZoneGrid(
      shape.0, shape.1, cw, ch,
      Lines(b.y1, ch, shape.0),
      Lines(b.x1, cw, shape.1),
      centres,
      CellLabels(centres, shape.1),
      Caption(z, shape.0, shape.1, b))
  }

  /** Cell `k`'s centre is half a cell past the vertical line of its column
      and the horizontal line of its row. */
  lemma CentresOnLines(b: Box, rows: nat, cols: nat, cw: int, ch: int)
    requires cols > 0
    ensures var r := Centres(b, rows, cols, cw, ch);
      var rl := Lines(b.y1, ch, rows);
      var cl := Lines(b.x1, cw, cols);
      forall k :: 0 <= k < |r| ==> (k / cols < rows &&
        r[k] == (cl[k % cols] + cw / 2, rl[k / cols] + ch / 2))
  {
  }

  /** Floor division by a positive count: `(a / n) * n <= a < (a / n + 1) * n`. */
  lemma FloorDiv(a: int, n: nat)
    requires n > 0
    ensures (a / n) * n <= a < (a / n + 1) * n
  {
    assert a == (a / n) * n + a % n;
    assert (a / n + 1) * n == (a / n) * n + n;
  }

  lemma MulLeq(i: int, j: int, c: int)
    requires i <= j && c >= 0
    ensures i * c <= j * c
  {
    assert j * c - i * c == (j - i) * c;
  }

  /** `0 <= i * (extent / n) <= extent` for `i <= n`. */
  lemma LineOffset(i: nat, n: nat, extent: int)
    requires 0 < n && i <= n && 0 <= extent
    ensures 0 <= i * (extent / n) <= extent
  {
    var c := extent / n;
    FloorDiv(extent, n);
    MulLeq(i, n, c);
    MulLeq(0, i, c);
  }

  /** `0 <= i * c + c / 2 <= extent` for `i < n`, where `c = extent / n`. */
  lemma CentreOffset(i: nat, n: nat, extent: int)
    requires i < n && 0 <= extent
    ensures 0 <= i * (extent / n) + (extent / n) / 2 <= extent
  {
    var c := extent / n;
    FloorDiv(extent, n);
    MulLeq(i, n - 1, c);
    MulLeq(0, i, c);
    assert (n - 1) * c + c == n * c;
  }

  /** On a zone with non-negative width and height, every grid line and
      every cell centre lies inside the zone. */
  lemma GridWithinZone(z: Zone, b: Box)
    requires WellFormed(b)
    ensures var g := ZoneGridOf(z, b);
      && (forall i :: 0 <= i <= g.rows ==> b.y1 <= g.rowLines[i] <= b.y2)
      && (forall j :: 0 <= j <= g.cols ==> b.x1 <= g.colLines[j] <= b.x2)
      && (forall k :: 0 <= k < |g.centres| ==>
            b.x1 <= g.centres[k].0 <= b.x2 && b.y1 <= g.centres[k].1 <= b.y2)
  {
    var g := ZoneGridOf(z, b);
    LinesWithin(b.y1, Height(b), g.rows);
    LinesWithin(b.x1, Width(b), g.cols);
    CentresWithin(b, g.rows, g.cols);
  }

  lemma LinesWithin(start: int, extent: int, n: nat)
    requires 0 < n && 0 <= extent
    ensures var r := Lines(start, extent / n, n);
      forall i :: 0 <= i <= n ==> start <= r[i] <= start + extent
  {
    var r := Lines(start, extent / n, n);
    forall i | 0 <= i <= n ensures start <= r[i] <= start + extent {
      LineOffset(i, n, extent);
    }
  }

  lemma CentresWithin(b: Box, rows: nat, cols: nat)
    requires WellFormed(b) && 0 < rows && 0 < cols
    ensures var r := Centres(b, rows, cols, Width(b) / cols, Height(b) / rows);
      forall k :: 0 <= k < |r| ==> b.x1 <= r[k].0 <= b.x2 && b.y1 <= r[k].1 <= b.y2
  {
    var r := Centres(b, rows, cols, Width(b) / cols, Height(b) / rows);
    forall k | 0 <= k < |r| ensures b.x1 <= r[k].0 <= b.x2 && b.y1 <= r[k].1 <= b.y2 {
      DivBound(k, rows, cols);
      CellWithin(b, rows, cols, k / cols, k % cols);
    }
  }

  /** The centre of the cell in row `i`, column `j` lies inside the zone. */
  lemma CellWithin(b: Box, rows: nat, cols: nat, i: nat, j: nat)
    requires WellFormed(b) && i < rows && j < cols
    ensures var cw := Width(b) / cols;
            var ch := Height(b) / rows;
            b.x1 <= b.x1 + j * cw + cw / 2 <= b.x2 && b.y1 <= b.y1 + i * ch + ch / 2 <= b.y2
  {
    CentreOffset(j, cols, Width(b));
    CentreOffset(i, rows, Height(b));
  }

  /** The row of a row-major cell index is below the row count. */
  lemma DivBound(k: nat, rows: nat, cols: nat)
    requires 0 < cols && k < rows * cols
    ensures k / cols < rows
  {
    FloorDiv(k, cols);
    if k / cols >= rows {
      MulLeq(rows, k / cols, cols);
    }
  }

  /** `visualize_theoretical_grid`: nothing without locked regions,
      otherwise one grid per locked zone. */
  function TheoreticalGrid(locked: Option<Regions>): (r: Option<map<Zone, ZoneGrid>>)
    ensures r.Some? <==> locked.Some? && |locked.value| > 0
    ensures r.Some? ==> r.value.Keys == locked.value.Keys
    ensures r.Some? ==> forall z :: z in r.value ==> r.value[z] == ZoneGridOf(z, locked.value[z])
  {
    match locked
    case None => None
    case Some(m) =>
      if |m| == 0 then None
      else Some(map z | z in m :: ZoneGridOf(z, m[z]))
  }
}

=== FILE: decimal.dfy ===
/** Decimal text of integers, as Python's `str(n)` and f-string formatting
    write it, and the matching parser.  The parser is the partner of the
    formatter: `ParseNat(NatToString(n)) == n` makes the formatting injective,
    which is what keeps the `temp_k` identifiers distinct and lets a threshold
    written into a text field be read back unchanged. */
module Decimal {
  import opened Options

  predicate IsDigit(c: char) {
    '0' <= c <= '9'
  }

  predicate AllDigits(s: string) {
    forall i :: 0 <= i < |s| ==> IsDigit(s[i])
  }

  function DigitChar(d: nat): (c: char)
    requires d < 10
    ensures IsDigit(c)
  {
    ('0' as int + d) as char
  }

  function DigitValue(c: char): (d: nat)
    requires IsDigit(c)
    ensures d < 10
  {
    (c as int - '0' as int) as nat
  }

  lemma DigitRoundTrip(d: nat)
    requires d < 10
    ensures DigitValue(DigitChar(d)) == d
  {
  }

  /** Decimal digits of `n`, most significant first, no leading zeros. */
  function NatToString(n: nat): (s: string)
    ensures 1 <= |s|
    ensures AllDigits(s)
    ensures n < 10 <==> |s| == 1
    decreases n
  {
    if n < 10 then [DigitChar(n)] else NatToString(n / 10) + [DigitChar(n % 10)]
  }

  /** Python's `str(i)` for an int. */
  function IntToString(i: int): (s: string)
    ensures 1 <= |s|
    ensures i < 0 <==> s[0] == '-'
  {
    if i < 0 then "-" + NatToString(-i) else NatToString(i)
  }

  /** The value of a non-empty string of decimal digits; `None` for the
      empty string or any other character. */
  function ParseNat(s: string): (r: Option<nat>)
    decreases |s|
  {
    if |s| == 0 || !IsDigit(s[|s| - 1]) then None
    else if |s| == 1 then Some(DigitValue(s[0]))
    else
      match ParseNat(s[..|s| - 1])
      case None => None
      case Some(v) => Some(v * 10 + DigitValue(s[|s| - 1]))
  }

  /** The parser accepts exactly the non-empty digit strings. */
  lemma {:induction false} ParseNatAccepts(s: string)
    ensures ParseNat(s).Some? <==> |s| > 0 && AllDigits(s)
    decreases |s|
  {
    if |s| > 1 {
      var init := s[..|s| - 1];
      ParseNatAccepts(init);
      if AllDigits(s) {
        assert AllDigits(init) by {
          forall i | 0 <= i < |init| ensures IsDigit(init[i]) {
            assert init[i] == s[i];
          }
        }
      }
      if ParseNat(s).Some? {
        forall i | 0 <= i < |s| ensures IsDigit(s[i]) {
          if i < |s| - 1 {
            assert s[i] == init[i];
          }
        }
      }
    }
  }

  lemma {:induction false} ParseNatToString(n: nat)
    ensures ParseNat(NatToString(n)) == Some(n)
    decreases n
  {
    var s := NatToString(n);
    if n < 10 {
      DigitRoundTrip(n);
    } else {
      ParseNatToString(n / 10);
      assert s[..|s| - 1] == NatToString(n / 10);
      DigitRoundTrip(n % 10);
    }
  }

  lemma NatToStringInjective(a: nat, b: nat)
    ensures NatToString(a) == NatToString(b) ==> a == b
  {
    ParseNatToString(a);
    ParseNatToString(b);
  }

  /** `str(i)` is injective on all integers: the sign is the leading `-`,
      and the digits after it are those of the magnitude. */
  lemma IntToStringInjective(a: int, b: int)
    ensures IntToString(a) == IntToString(b) ==> a == b
  {
    if IntToString(a) == IntToString(b) {
      if a < 0 {
        assert IntToString(a)[1..] == NatToString(-a);
        assert IntToString(b)[1..] == NatToString(-b);
        NatToStringInjective(-a, -b);
      } else {
        NatToStringInjective(a, b);
      }
    }
  }
}

=== FILE: geometry.dfy ===
/** Detections and their bounding boxes, and the intersection-over-union
    measure the suppression step compares against its threshold.  Boxes have
    integer corners, so IoU is an exact rational and is modelled as a `real`. */
module Geometry {

  /** An axis-aligned box `(x1, y1, x2, y2)`: top-left and bottom-right corner.
      Zone rectangles have the same shape and use the same type. */
  datatype Box = Box(x1: int, y1: int, x2: int, y2: int)

  /** The template a raw hit came from.  `shape` is the template image's
      `(height, width, channels)`, in that order. */
  datatype TemplateInfo = TemplateInfo(
    pieceType: string,
    color: string,
    orientation: string,
    shape: (nat, nat, nat))

  /** One template-match hit: `location` is the `(x, y)` pixel of the
      template's top-left corner in the searched image. */
  datatype Detection = Detection(info: TemplateInfo, location: (nat, nat), confidence: real)
  {
    function PieceName(): string { info.pieceType }
    function Color(): string { info.color }
  }

  predicate WellFormed(b: Box) {
    b.x1 <= b.x2 && b.y1 <= b.y2
  }

  function Width(b: Box): int { b.x2 - b.x1 }
  function Height(b: Box): int { b.y2 - b.y1 }
  function Area(b: Box): int { Width(b) * Height(b) }

  function Max(a: int, b: int): int { if a < b then b else a }
  function Min(a: int, b: int): int { if a < b then a else b }

  /** The bounding box of a hit: the template's width (shape index 1) to the
      right of the location and its height (shape index 0) below it. */
  function BBox(d: Detection): (b: Box)
    ensures WellFormed(b)
    ensures (b.x1, b.y1) == d.location
    ensures Width(b) == d.info.shape.1 && Height(b) == d.info.shape.0
    ensures Area(b) == d.info.shape.0 * d.info.shape.1
  {
    var (x1, y1) := d.location;
    var (h, w, _) := d.info.shape;
    Box(x1, y1, x1 + w, y1 + h)
  }

  /** The area two boxes share: positive exactly when their spans overlap
      strictly on both axes, and zero otherwise. */
  function Intersection(a: Box, b: Box): (r: int)
    ensures r >= 0
    ensures r > 0 <==> Max(a.x1, b.x1) < Min(a.x2, b.x2) && Max(a.y1, b.y1) < Min(a.y2, b.y2)
    ensures Disjoint(a, b) ==> r == 0
  {
    var iw := Max(0, Min(a.x2, b.x2) - Max(a.x1, b.x1));
    var ih := Max(0, Min(a.y2, b.y2) - Max(a.y1, b.y1));
    PositiveProduct(iw, ih);
    iw * ih
  }

  /** The area covered by either box: for well-formed boxes, at least the
      larger box's area and at most the two areas together. */
  function Union(a: Box, b: Box): (r: int)
    ensures WellFormed(a) && WellFormed(b) ==>
      Intersection(a, b) <= Area(a) <= r && Area(b) <= r <= Area(a) + Area(b)
  {
    IntersectionBoundedWhenWellFormed(a, b);
    Area(a) + Area(b) - Intersection(a, b)
  }

  /** Intersection over union: the ratio whose product with the union is the
      shared area, and 0 when the union is not positive. */
  function IoU(a: Box, b: Box): (r: real)
    ensures Union(a, b) > 0 ==> r * Union(a, b) as real == Intersection(a, b) as real
    ensures r == 0.0 <==> Intersection(a, b) == 0 || Union(a, b) <= 0
  {
    Ratio(Intersection(a, b), Union(a, b))
  }

  /** `i / u` as an exact ratio, and 0 when `u` is not positive: times a
      positive `u` it gives back `i`. */
  function Ratio(i: int, u: int): (r: real)
    ensures u > 0 ==> r * u as real == i as real
    ensures r == 0.0 <==> i == 0 || u <= 0
  {
    if u > 0 then i as real / u as real else 0.0
  }

  /** A product of two non-negative factors is positive exactly when both
      factors are. */
  lemma PositiveProduct(x: int, y: int)
    requires 0 <= x && 0 <= y
    ensures 0 <= x * y
    ensures x * y > 0 <==> x > 0 && y > 0
  {
    if x > 0 && y > 0 {
      MulMono(1, 1, x, y);
    }
  }

  lemma IntersectionBoundedWhenWellFormed(a: Box, b: Box)
    ensures WellFormed(a) && WellFormed(b) ==>
      0 <= Intersection(a, b) <= Area(a) && Intersection(a, b) <= Area(b)
  {
    if WellFormed(a) && WellFormed(b) {
      IntersectionBounded(a, b);
    }
  }

  /** The centre of a box, as the float the analyzer computes. */
  function Midpoint(b: Box): (real, real) {
    (b.x1 as real + (b.x2 - b.x1) as real / 2.0, b.y1 as real + (b.y2 - b.y1) as real / 2.0)
  }

  predicate Disjoint(a: Box, b: Box) {
    a.x2 <= b.x1 || b.x2 <= a.x1 || a.y2 <= b.y1 || b.y2 <= a.y1
  }

  lemma IoUSymmetric(a: Box, b: Box)
    ensures IoU(a, b) == IoU(b, a)
  {
    assert Intersection(a, b) == Intersection(b, a);
  }

  lemma IoUDisjoint(a: Box, b: Box)
    requires Disjoint(a, b)
    ensures Intersection(a, b) == 0
    ensures IoU(a, b) == 0.0
  {
  }

  lemma IoUNoUnion(a: Box, b: Box)
    requires Union(a, b) <= 0
    ensures IoU(a, b) == 0.0
  {
  }

  lemma MulMono(a: int, b: int, c: int, d: int)
    requires 0 <= a <= c && 0 <= b <= d
    ensures 0 <= a * b <= c * d
  {
    assert a * b <= c * b;
    assert c * b <= c * d;
  }

  /** The shared area of two well-formed boxes is at most either box's area. */
  lemma IntersectionBounded(a: Box, b: Box)
    requires WellFormed(a) && WellFormed(b)
    ensures 0 <= Intersection(a, b) <= Area(a)
    ensures Intersection(a, b) <= Area(b)
  {
    var iw := Max(0, Min(a.x2, b.x2) - Max(a.x1, b.x1));
    var ih := Max(0, Min(a.y2, b.y2) - Max(a.y1, b.y1));
    MulMono(iw, ih, Width(a), Height(a));
    MulMono(iw, ih, Width(b), Height(b));
  }

  /** IoU of well-formed boxes is a ratio in [0, 1]. */
  lemma IoUInUnitRange(a: Box, b: Box)
    requires WellFormed(a) && WellFormed(b)
    ensures 0.0 <= IoU(a, b) <= 1.0
  {
    IntersectionBounded(a, b);
    var u := Union(a, b);
    if u > 0 {
      RatioInUnit(Intersection(a, b), u);
    }
  }

  lemma RatioInUnit(i: int, u: int)
    requires 0 <= i <= u && 0 < u
    ensures 0.0 <= i as real / u as real <= 1.0
  {
    var q := i as real / u as real;
    assert q * u as real == i as real;
  }

  /** A box with positive area overlaps itself completely. */
  lemma IoUSelf(a: Box)
    requires WellFormed(a) && Area(a) > 0
    ensures IoU(a, a) == 1.0
  {
    assert Intersection(a, a) == Area(a) == Union(a, a);
    RatioOfEqual(IoU(a, a), Intersection(a, a), Union(a, a));
  }

  /** A ratio whose product with a positive number is that same number is 1. */
  lemma RatioOfEqual(q: real, i: int, u: int)
    requires 0 < u && u == i && q * u as real == i as real
    ensures q == 1.0
  {
    assert q == (q * u as real) / u as real;
  }
}

=== FILE: logger.dfy ===
/** The information panel of modules/core/logger.py (the same methods are
    repeated in dashboard_main.py).  The Tk text widget is modelled as the
    sequence of tagged segments inserted at its end; each logging call
    appends segments and `clear_info_panel` empties it. */
module Logger {
  import opened Options
  import opened Decimal
  import opened Board
  import opened Report
  import opened Sequences

  /** One `insert(tk.END, text, tag)`; an insert without a tag has `None`. */
  datatype Segment = Segment(text: string, tag: Option<string>)

  type Panel = seq<Segment>

  /** `'=' * 15`. */
  const Rule: string := "==============="

  function EndsWithNewline(s: string): bool {
    |s| > 0 && s[|s| - 1] == '\n'
  }

  // ---------------------------------------------------------------------
  // log_to_dashboard

  /** The item types the dashboard distinguishes; any other `type` value is
      `Unknown`. */
  datatype ItemKind = Header | Error | Info | PieceLine | SeparatorItem | Unknown(name: string)

  function ClassifyType(t: string): (k: ItemKind)
    ensures k.Unknown? <==> t !in {"header", "error", "info", "piece_line", "separator"}
    ensures k.Unknown? ==> k.name == t
  {
    if t == "header" then Header
    else if t == "error" then Error
    else if t == "info" then Info
    else if t == "piece_line" then PieceLine
    else if t == "separator" then SeparatorItem
    else Unknown(t)
  }

  /** `item.get('type', 'info')`, classified. */
  function KindOf(item: ReportItem): ItemKind {
    ClassifyType(item.kind.GetOr("info"))
  }

  /** The tag a one-line item is inserted with: the table of the header,
      error and info branches; the other branches insert without a tag. */
  function LineTag(k: ItemKind): Option<string> {
    match k
    case Header => Some("h_default")
    case Error => Some("p_bold_red")
    case Info => Some("p_cyan")
    case _ => None
  }

  /** A piece is tagged `eliminated` when `is_eliminated` is set, and with
      its `color_tag` (by default `p_default`) otherwise. */
  function PieceTag(p: PieceInfo): string {
    if p.isEliminated.GetOr(false) then "eliminated" else p.colorTag.GetOr("p_default")
  }

  /** The piece's text, between a two-space indent and a trailing space. */
  function PieceSegment(p: PieceInfo): (s: Segment)
    ensures s.tag == Some(PieceTag(p))
    ensures |s.text| >= 3 && s.text[..2] == "  " && s.text[|s.text| - 1] == ' '
    ensures s.text[2..|s.text| - 1] == p.text.GetOr("")
  {
    Segment("  " + p.text.GetOr("") + " ", Some(PieceTag(p)))
  }

  /** The segments of one report item. */
  function ItemSegments(item: ReportItem): (r: seq<Segment>)
    ensures |r| == if KindOf(item) == PieceLine then |ItemPieces(item)| + 1 else 1
    ensures EndsWithNewline(r[|r| - 1].text)
    ensures KindOf(item) != PieceLine ==> r[0].tag == LineTag(KindOf(item))
    ensures KindOf(item) == PieceLine ==>
      && r[|r| - 1] == Segment("\n", None)
      && forall i :: 0 <= i < |ItemPieces(item)| ==>
           r[i].tag == Some(PieceTag(ItemPieces(item)[i])) && !EndsWithNewline(r[i].text)
  {
    var text := item.text.GetOr("");
    match KindOf(item)
    case PieceLine =>
      var ps := ItemPieces(item);
      seq(|ps|, i requires 0 <= i < |ps| => PieceSegment(ps[i])) + [Segment("\n", None)]
    case SeparatorItem => [Segment("\n", None)]
    case k => [Segment(text + "\n", LineTag(k))]
  }

  /** A one-line item shows its text followed by a newline; a separator
      shows only the newline. */
  lemma OneLineItemText(item: ReportItem)
    requires KindOf(item) != PieceLine
    ensures KindOf(item) == SeparatorItem ==> ItemSegments(item)[0].text == "\n"
    ensures KindOf(item) != SeparatorItem ==> ItemSegments(item)[0].text == item.text.GetOr("") + "\n"
  {
  }

  /** An item without a `type` key is shown exactly as an `info` item. */
  lemma MissingTypeIsInfo(item: ReportItem)
    requires item.kind.None?
    ensures ItemSegments(item) == ItemSegments(item.(kind := Some("info")))
    ensures ItemSegments(item)[0].tag == Some("p_cyan")
  {
    assert KindOf(item) == KindOf(item.(kind := Some("info"))) == Info;
  }

  /** The items in order, each with its segments. */
  function ItemsSegments(items: seq<ReportItem>): seq<Segment> {
    FlatMap(items, ItemSegments)
  }

  /** Logging two batches of items one after the other shows the same as
      logging them together. */
  lemma ItemsSegmentsAppend(a: seq<ReportItem>, b: seq<ReportItem>)
    ensures ItemsSegments(a + b) == ItemsSegments(a) + ItemsSegments(b)
  {
    FlatMapAppend(a, b, ItemSegments);
  }

  /** The run separator: only when `recognition_id` is truthy, naming the
      id and counting `total_count` (by default 0). */
  function RunHeader(report: Report, recognitionId: Option<string>): (r: seq<Segment>)
    ensures |r| == if recognitionId.Some? && recognitionId.value != "" then 1 else 0
    ensures |r| == 1 ==> r[0].tag == Some("h_default") && "\n" + Rule <= r[0].text
    ensures |r| == 1 ==> RunHeaderHead(recognitionId.value) <= r[0].text
    ensures |r| == 1 ==> EndsWithNewline(r[0].text)
  {
    match recognitionId
    case Some(rid) =>
      if rid != "" then
        var head := RunHeaderHead(rid);
        var total := IntToString(report.totalCount.GetOr(0));
        PrefixOfConcat(head, total, RunHeaderTail);
        [Segment(head + total + RunHeaderTail, Some("h_default"))]
      else []
    case None => []
  }

  /** The run separator up to the count: the rule, then the id in brackets. */
  function RunHeaderHead(rid: string): (h: string)
    ensures "\n" + Rule <= h
  {
    PrefixOfConcat("\n" + Rule, " [ " + rid + " ] (总棋子数: ", "");
    assert "\n" + Rule + (" [ " + rid + " ] (总棋子数: ") + "" == "\n" + Rule + " [ " + rid + " ] (总棋子数: ";
    "\n" + Rule + " [ " + rid + " ] (总棋子数: "
  }

  const RunHeaderTail: string := "个) " + Rule + "\n"

  /** The separator shows the count: two reports headed alike under the same
      id have the same `total_count` (a missing one counting as 0). */
  lemma RunHeaderShowsCount(r1: Report, r2: Report, rid: string)
    requires rid != "" && RunHeader(r1, Some(rid)) == RunHeader(r2, Some(rid))
    ensures r1.totalCount.GetOr(0) == r2.totalCount.GetOr(0)
  {
    var head := RunHeaderHead(rid);
    var t1 := IntToString(r1.totalCount.GetOr(0));
    var t2 := IntToString(r2.totalCount.GetOr(0));
    MiddleOf(head, t1, RunHeaderTail);
    MiddleOf(head, t2, RunHeaderTail);
    IntToStringInjective(r1.totalCount.GetOr(0), r2.totalCount.GetOr(0));
  }

  /** The middle of `p + m + q` is recovered by cutting `p` and `q` off. */
  lemma MiddleOf(p: string, m: string, q: string)
    ensures |p| <= |p + m + q| - |q|
    ensures (p + m + q)[|p|..|p + m + q| - |q|] == m
  {
  }

  /** A report without `total_count` is headed as one with a count of 0. */
  lemma RunHeaderDefaultCount(report: Report, recognitionId: Option<string>)
    requires report.totalCount.None?
    ensures RunHeader(report, recognitionId) == RunHeader(report.(totalCount := Some(0)), recognitionId)
  {
  }

  /** The number of segments that end a line. */
  function Breaks(s: seq<Segment>): nat
    decreases |s|
  {
    if s == [] then 0 else (if EndsWithNewline(s[0].text) then 1 else 0) + Breaks(s[1..])
  }

  lemma {:induction false} BreaksAppend(a: seq<Segment>, b: seq<Segment>)
    ensures Breaks(a + b) == Breaks(a) + Breaks(b)
    decreases |a|
  {
    if a == [] {
      assert a + b == b;
    } else {
      assert (a + b)[0] == a[0];
      assert (a + b)[1..] == a[1..] + b;
      BreaksAppend(a[1..], b);
    }
  }

  lemma {:induction false} NoBreaks(s: seq<Segment>)
    requires forall i :: 0 <= i < |s| ==> !EndsWithNewline(s[i].text)
    ensures Breaks(s) == 0
    decreases |s|
  {
    if s != [] {
      NoBreaks(s[1..]);
    }
  }

  /** Every report item, whatever its type, ends exactly one line: the
      pieces of a piece line share the line that its final newline ends. */
  lemma ItemBreaks(item: ReportItem)
    ensures Breaks(ItemSegments(item)) == 1
  {
    var r := ItemSegments(item);
    var n := |r| - 1;
    assert r == r[..n] + [r[n]];
    BreaksAppend(r[..n], [r[n]]);
    assert Breaks([r[n]]) == 1;
    if KindOf(item) == PieceLine {
      NoBreaks(r[..n]);
    }
  }

  /** The run separator, when present, is one line. */
  lemma RunHeaderBreaks(report: Report, recognitionId: Option<string>)
    ensures Breaks(RunHeader(report, recognitionId)) == |RunHeader(report, recognitionId)|
  {
    var h := RunHeader(report, recognitionId);
    if |h| == 1 {
      assert h[1..] == [];
    }
  }

  /** Logged items occupy one line each. */
  lemma {:induction false} ItemsBreaks(items: seq<ReportItem>)
    ensures Breaks(ItemsSegments(items)) == |items|
    decreases |items|
  {
    if items != [] {
      ItemsBreaks(items[1..]);
      ItemBreaks(items[0]);
      BreaksAppend(ItemSegments(items[0]), ItemsSegments(items[1..]));
    }
  }

  /** `log_to_dashboard(report, recognition_id)`: what was shown stays, then
      one separator line when the run has an id, then one line per item. */
  function LogToDashboard(panel: Panel, report: Report, recognitionId: Option<string>): (r: Panel)
    ensures |r| >= |panel| && r[..|panel|] == panel
    ensures Breaks(r) == Breaks(panel) + |RunHeader(report, recognitionId)| + |Items(report)|
    ensures |RunHeader(report, recognitionId)| == 1 ==>
      |r| > |panel| && r[|panel|] == RunHeader(report, recognitionId)[0]
  {
    var header := RunHeader(report, recognitionId);
    var items := ItemsSegments(Items(report));
    ItemsBreaks(Items(report));
    BreaksAppend(panel, header);
    BreaksAppend(panel + header, items);
    RunHeaderBreaks(report, recognitionId);
    panel + header + items
  }

  // ---------------------------------------------------------------------
  // log_message, clear_info_panel

  /** `log_message(message, tag)`: the message on a line of its own. */
  function LogMessage(panel: Panel, message: string, tag: Option<string>): (r: Panel)
    ensures |r| == |panel| + 1 && r[..|panel|] == panel
    ensures r[|panel|].tag == tag && EndsWithNewline(r[|panel|].text)
    ensures r[|panel|].text == message + "\n"
  {
    panel + [Segment(message + "\n", tag)]
  }

  /** A message adds exactly one line to the panel. */
  lemma LogMessageOneLine(panel: Panel, message: string, tag: Option<string>)
    ensures Breaks(LogMessage(panel, message, tag)) == Breaks(panel) + 1
  {
    var seg := Segment(message + "\n", tag);
    BreaksAppend(panel, [seg]);
    assert [seg][1..] == [];
  }

  /** Logging a report that holds a single `info` item, without a run
      header, shows the same as `log_message` with the `p_cyan` tag. */
  lemma InfoItemIsCyanMessage(panel: Panel, text: string)
    ensures LogToDashboard(panel, Report(None, Some([ReportItem(Some("info"), Some(text), None)])), None) ==
            LogMessage(panel, text, Some("p_cyan"))
  {
    var item := ReportItem(Some("info"), Some(text), None);
    assert [item][1..] == [];
    assert FlatMap([item], ItemSegments) == ItemSegments([item][0]) + FlatMap([item][1..], ItemSegments);
    assert FlatMap([item][1..], ItemSegments) == [];
    assert ItemsSegments([item]) == ItemSegments(item);
    assert ItemSegments(item) == [Segment(text + "\n", Some("p_cyan"))];
  }

  /** `clear_info_panel`: nothing is left. */
  function ClearInfoPanel(panel: Panel): (r: Panel)
    ensures |r| == 0
  {
    []
  }

  /** Whatever was shown before, clearing and then logging a report shows
      that report alone. */
  lemma ClearThenLog(p1: Panel, p2: Panel, report: Report, recognitionId: Option<string>)
    ensures LogToDashboard(ClearInfoPanel(p1), report, recognitionId)
         == LogToDashboard(ClearInfoPanel(p2), report, recognitionId)
  {
    assert ClearInfoPanel(p1) == ClearInfoPanel(p2);
  }

  // ---------------------------------------------------------------------
  // log_game_events

  /** Python's `str` of a coordinate pair: `(r, c)`. */
  function CoordsText(c: Coords): string {
    "(" + IntToString(c.0) + ", " + IntToString(c.1) + ")"
  }

  /** The tag an event line is inserted with, by event type. */
  function EventTag(e: GameEvent): Option<string> {
    match e
    case Capture(_, _, _) => Some("p_bold_red")
    case Trade(_, _, _) => Some("p_orange")
    case Bomb(_, _, _) => Some("p_bold_red")
    case Landmine(_, _) => Some("p_yellow")
    case _ => None
  }

  /** The label each reported event's line starts with. */
  function EventLabel(e: GameEvent): string
    requires !e.OtherEvent?
  {
    match e
    case Move(_, _, _) => "移动: "
    case Capture(_, _, _) => "交战: "
    case Trade(_, _, _) => "互换: "
    case Bomb(_, _, _) => "爆炸: "
    case Landmine(_, _) => "阵亡: "
  }

  /** The piece an event's line names first: the mover, the attacker, the
      first of the traded pair, the bomb, or the victim. */
  function Actor(e: GameEvent): Piece
    requires !e.OtherEvent?
  {
    match e
    case Move(p, _, _) => p
    case Capture(a, _, _) => a
    case Trade(p1, _, _) => p1
    case Bomb(b, _, _) => b
    case Landmine(v, _) => v
  }

  /** What follows the label on an event's line: the position of the piece
      it names first, a space, and the rest of the sentence. */
  function EventDetail(e: GameEvent): string
    requires !e.OtherEvent?
  {
    Actor(e).playerPos + " " + EventRest(e)
  }

  /** The sentence after the first piece's position. */
  function EventRest(e: GameEvent): string
    requires !e.OtherEvent?
  {
    match e
    case Move(p, from, to) =>
      p.name + " 从 " + CoordsText(from) + " -> " + CoordsText(to) + "。"
    case Capture(a, d, c) =>
      a.name + " 在 " + CoordsText(c) + " 吃掉 " + d.playerPos + " " + d.name + "！"
    case Trade(p1, p2, c) =>
      p1.name + " 与 " + p2.playerPos + " " + p2.name + " 在 " + CoordsText(c) + " 同归于尽！"
    case Bomb(_, t, c) =>
      "炸弹 💥 在 " + CoordsText(c) + " 炸掉 " + t.playerPos + " " + t.name + "！"
    case Landmine(v, c) =>
      v.name + " 在 " + CoordsText(c) + " 撞上地雷！"
  }

  /** The message `log_game_events` builds for a reported event: its label,
      then the position of the piece it names first, and a closing `。` for
      a move or `！` for every other event. */
  function EventMessage(e: GameEvent): (r: string)
    requires !e.OtherEvent?
    ensures EventLabel(e) + Actor(e).playerPos + " " <= r
    ensures |r| > 0 && r[|r| - 1] == if e.Move? then '。' else '！'
  {
    DetailStartsWithActor(e);
    DetailEndMark(e);
    PrefixThenPrefix(EventLabel(e), Actor(e).playerPos + " ", EventDetail(e));
    EventLabel(e) + EventDetail(e)
  }

  /** An event's detail starts with its actor's position and a space. */
  lemma DetailStartsWithActor(e: GameEvent)
    requires !e.OtherEvent?
    ensures Actor(e).playerPos + " " <= EventDetail(e)
  {
  }

  /** Every event's sentence ends with its closing mark. */
  lemma DetailEndMark(e: GameEvent)
    requires !e.OtherEvent?
    ensures |EventDetail(e)| > 0 && EventDetail(e)[|EventDetail(e)| - 1] == if e.Move? then '。' else '！'
  {
  }

  /** Appending keeps a prefix: `b <= c` gives `a + b <= a + c`. */
  lemma PrefixThenPrefix(a: string, b: string, c: string)
    requires b <= c
    ensures a + b <= a + c
  {
  }

  /** A string is a prefix of anything built by appending to it. */
  lemma PrefixOfConcat(a: string, b: string, c: string)
    ensures a <= a + b + c
  {
    assert (a + b + c)[..|a|] == a;
  }

  /** Different event types carry different labels, so a logged line tells
      which kind of event it reports. */
  lemma EventLabelsDistinct(e1: GameEvent, e2: GameEvent)
    requires !e1.OtherEvent? && !e2.OtherEvent?
    ensures EventLabel(e1) == EventLabel(e2) <==>
      (e1.Move? == e2.Move? && e1.Capture? == e2.Capture? && e1.Trade? == e2.Trade?
       && e1.Bomb? == e2.Bomb? && e1.Landmine? == e2.Landmine?)
  {
  }

  /** The line of one event; an event of any other type shows nothing. */
  function EventSegments(e: GameEvent): (r: seq<Segment>)
    ensures |r| == if e.OtherEvent? then 0 else 1
    ensures |r| == 1 ==> r[0].tag == EventTag(e) && EndsWithNewline(r[0].text)
    ensures |r| == 1 ==> EventLabel(e) <= r[0].text
  {
    if e.OtherEvent? then []
    else
      PrefixOfConcat(EventLabel(e), EventDetail(e), "\n");
      [Segment(EventMessage(e) + "\n", EventTag(e))]
  }

  /** Moves are untagged; the tagged event types are exactly captures,
      trades, bombs and landmines. */
  lemma EventTagTable(e: GameEvent)
    ensures EventTag(e).Some? <==> e.Capture? || e.Trade? || e.Bomb? || e.Landmine?
    ensures EventTag(e) == Some("p_bold_red") <==> e.Capture? || e.Bomb?
  {
  }

  /** The number of events that produce a line. */
  function Reported(events: seq<GameEvent>): (n: nat)
    ensures n <= |events|
    decreases |events|
  {
    if events == [] then 0 else (if events[0].OtherEvent? then 0 else 1) + Reported(events[1..])
  }

  function EventsSegments(events: seq<GameEvent>): seq<Segment> {
    FlatMap(events, EventSegments)
  }

  /** One line per event of a logged type. */
  lemma {:induction false} EventsSegmentsCount(events: seq<GameEvent>)
    ensures |EventsSegments(events)| == Reported(events)
    decreases |events|
  {
    if events != [] {
      EventsSegmentsCount(events[1..]);
      assert |EventSegments(events[0])| == if events[0].OtherEvent? then 0 else 1;
    }
  }

  /** An event line is never tagged as a header and ends in a newline. */
  predicate EventLine(s: Segment) {
    s.tag != Some("h_default") && EndsWithNewline(s.text)
  }

  lemma EventsSegmentsLines(events: seq<GameEvent>)
    ensures forall i :: 0 <= i < |EventsSegments(events)| ==> EventLine(EventsSegments(events)[i])
  {
    forall e, k | e in events && 0 <= k < |EventSegments(e)| ensures EventLine(EventSegments(e)[k]) {
      EventTagTable(e);
    }
    FlatMapAll(events, EventSegments, EventLine);
  }

  /** Events reported in two batches show the same lines as one batch. */
  lemma EventsSegmentsAppend(a: seq<GameEvent>, b: seq<GameEvent>)
    ensures EventsSegments(a + b) == EventsSegments(a) + EventsSegments(b)
  {
    FlatMapAppend(a, b, EventSegments);
  }

  /** The line of a reported event `events[i]` comes after the lines of the
      events before it, one per reported event. */
  lemma EventLineAt(events: seq<GameEvent>, i: nat)
    requires i < |events| && !events[i].OtherEvent?
    ensures Reported(events[..i]) < Reported(events)
    ensures Reported(events[..i]) < |EventsSegments(events)|
    ensures EventsSegments(events)[Reported(events[..i])] == EventSegments(events[i])[0]
  {
    var a, b := events[..i], events[i..];
    assert events == a + b;
    EventsSegmentsAppend(a, b);
    EventsSegmentsCount(a);
    EventsSegmentsCount(events);
    assert b[0] == events[i];
    assert EventsSegments(b) == EventSegments(b[0]) + EventsSegments(b[1..]);
  }

  lemma EventLinesAt(events: seq<GameEvent>)
    ensures forall i :: 0 <= i < |events| && !events[i].OtherEvent? ==>
              && Reported(events[..i]) < |EventsSegments(events)|
              && EventsSegments(events)[Reported(events[..i])] == EventSegments(events[i])[0]
  {
    forall i | 0 <= i < |events| && !events[i].OtherEvent?
      ensures && Reported(events[..i]) < |EventsSegments(events)|
              && EventsSegments(events)[Reported(events[..i])] == EventSegments(events[i])[0]
    {
      EventLineAt(events, i);
    }
  }

  const NoChange: string := "棋盘无变化。\n"

  /** The `===== [ time ] =====` header of an event report. */
  function EventsHeader(clock: string): (h: Segment)
    ensures h.tag == Some("h_default") && "\n" + Rule <= h.text
    ensures "\n" + Rule + " [ " + clock + " ] " <= h.text
    ensures EndsWithNewline(h.text)
  {
    var head := "\n" + Rule + " [ " + clock + " ] ";
    var text := head + Rule + "\n";
    PrefixOfConcat(head, Rule, "\n");
    assert head == ("\n" + Rule) + (" [ " + clock + " ] ");
    Segment(text, Some("h_default"))
  }

  /** `log_game_events(events)`, with the `%H:%M:%S` clock reading as a
      parameter: a header, then either the no-change line or one line per
      reported event. */
  function LogGameEvents(panel: Panel, events: seq<GameEvent>, clock: string): (r: Panel)
    ensures |r| == |panel| + 1 + (if events == [] then 1 else Reported(events))
    ensures r[..|panel|] == panel
    ensures r[|panel|].tag == Some("h_default") && "\n" + Rule <= r[|panel|].text
    ensures "\n" + Rule + " [ " + clock + " ] " <= r[|panel|].text
    ensures events == [] ==> r[|panel| + 1] == Segment(NoChange, None)
    ensures forall i :: |panel| < i < |r| ==> r[i].tag != Some("h_default")
    ensures forall i :: 0 <= i < |events| && !events[i].OtherEvent? ==>
              && |panel| + 1 + Reported(events[..i]) < |r|
              && r[|panel| + 1 + Reported(events[..i])] == EventSegments(events[i])[0]
  {
    EventsSegmentsCount(events);
    EventsSegmentsLines(events);
    EventLinesAt(events);
    var header := EventsHeader(clock);
    if events == [] then panel + [header, Segment(NoChange, None)]
    else panel + [header] + EventsSegments(events)
  }
}

=== FILE: options.dfy ===
/** Optional values: the model's stand-in for Python's `None`, for missing
    dictionary keys read with `.get(key, default)`, and for falsy results. */
module Options {

  datatype Option<+T> = None | Some(value: T) {

    /** The value, or `default` when absent: Python's `d.get(key, default)`. */
    function GetOr(default: T): T {
      match this
      case Some(v) => v
      case None => default
    }
  }
}

=== FILE: preliminary.dfy ===
/** The preliminary board state (the loop of `analyze_screenshot` in
    game_analyzer.py).

    Each detection's box centre is mapped to a zone and grid cell by
    `map_pixel_to_grid`, which is not part of this model and is taken as a
    function parameter.  Detections it does not map are skipped; the others
    become pieces with sequential ids `temp_0`, `temp_1`, ..., and the grid
    records, per cell, the id of the last piece placed there. */
module Preliminary {
  import opened Options
  import opened Decimal
  import opened Geometry
  import opened Board
  import Calibration

  /** `map_pixel_to_grid(center_x, center_y, locked_regions)`: a falsy
      result is `None`, otherwise the zone name and the cell. */
  type GridMapper = (real, real, Calibration.Regions) -> Option<(string, Coords)>

  /** `f"temp_{k}"`. */
  function TempId(k: nat): (id: string)
    ensures |id| > 5 && id[..5] == "temp_"
  {
    "temp_" + NatToString(k)
  }

  /** A detection that the mapper placed, with the place it was given. */
  datatype Placement = Placement(det: Detection, playerPos: string, coords: Coords)

  function Centre(d: Detection): (real, real) {
    Midpoint(BBox(d))
  }

  /** The mapped detections, in detection order: one placement per position
      the mapper places. */
  function Placements(dets: seq<Detection>, regions: Calibration.Regions, mapPixel: GridMapper): (ps: seq<Placement>)
    ensures |ps| == |MappedPositions(dets, regions, mapPixel)|
    decreases |dets|
  {
    if dets == [] then []
    else
      MappedPositionsStep(dets, regions, mapPixel);
      var prev := Placements(dets[..|dets| - 1], regions, mapPixel);
      var d := dets[|dets| - 1];
      match mapPixel(Centre(d).0, Centre(d).1, regions)
      case None => prev
      case Some(place) => prev + [Placement(d, place.0, place.1)]
  }

  /** Whether the mapper gives detection `d` a place. */
  predicate Mapped(d: Detection, regions: Calibration.Regions, mapPixel: GridMapper) {
    mapPixel(Centre(d).0, Centre(d).1, regions).Some?
  }

  /** The positions of the detections the mapper places. */
  function MappedPositions(dets: seq<Detection>, regions: Calibration.Regions, mapPixel: GridMapper): set<nat> {
    set k: nat | k < |dets| && Mapped(dets[k], regions, mapPixel)
  }

  /** One more detection adds its own, new, position when it is mapped. */
  lemma MappedPositionsStep(dets: seq<Detection>, regions: Calibration.Regions, mapPixel: GridMapper)
    requires dets != []
    ensures var n := |dets| - 1;
            && n !in MappedPositions(dets[..n], regions, mapPixel)
            && MappedPositions(dets, regions, mapPixel) ==
                 MappedPositions(dets[..n], regions, mapPixel) + (if Mapped(dets[n], regions, mapPixel) then {n} else {})
  {
    var n := |dets| - 1;
    assert forall k :: 0 <= k < n ==> dets[..n][k] == dets[k];
  }

  /** Exactly the detections the mapper places are kept, with the place
      it gives them, one placement per mapped detection; unmapped
      detections are skipped. */
  lemma PlacementsAreMapped(dets: seq<Detection>, regions: Calibration.Regions, mapPixel: GridMapper)
    ensures var ps := Placements(dets, regions, mapPixel);
      && |ps| == |MappedPositions(dets, regions, mapPixel)|
      && (forall p :: p in ps ==>
            p.det in dets && mapPixel(Centre(p.det).0, Centre(p.det).1, regions) == Some((p.playerPos, p.coords)))
      && (forall d :: d in dets && mapPixel(Centre(d).0, Centre(d).1, regions).Some? ==>
            exists p :: p in ps && p.det == d)
  {
    PlacementsMembers(dets, regions, mapPixel);
  }

  /** The placements are the mapped detections with their places. */
  lemma {:induction false} PlacementsMembers(dets: seq<Detection>, regions: Calibration.Regions, mapPixel: GridMapper)
    ensures var ps := Placements(dets, regions, mapPixel);
      && (forall p :: p in ps ==>
            p.det in dets && mapPixel(Centre(p.det).0, Centre(p.det).1, regions) == Some((p.playerPos, p.coords)))
      && (forall d :: d in dets && mapPixel(Centre(d).0, Centre(d).1, regions).Some? ==>
            exists p :: p in ps && p.det == d)
    decreases |dets|
  {
    if dets != [] {
      var init := dets[..|dets| - 1];
      PlacementsMembers(init, regions, mapPixel);
      assert dets == init + [dets[|dets| - 1]];
    }
  }

  /** The positions of the mapped detections, in increasing order. */
  function MappedIndices(dets: seq<Detection>, regions: Calibration.Regions, mapPixel: GridMapper): seq<nat>
    decreases |dets|
  {
    if dets == [] then []
    else
      var n := |dets| - 1;
      MappedIndices(dets[..n], regions, mapPixel) + (if Mapped(dets[n], regions, mapPixel) then [n] else [])
  }

  /** The mapped positions, enumerated in strictly increasing order. */
  lemma {:induction false} MappedIndicesEnumerate(dets: seq<Detection>, regions: Calibration.Regions, mapPixel: GridMapper)
    ensures var idx := MappedIndices(dets, regions, mapPixel);
            && (forall k :: 0 <= k < |idx| ==> idx[k] < |dets|)
            && (forall a, b :: 0 <= a < b < |idx| ==> idx[a] < idx[b])
            && (forall j: nat :: j in idx <==> j in MappedPositions(dets, regions, mapPixel))
    decreases |dets|
  {
    if dets != [] {
      var n := |dets| - 1;
      var prev := MappedIndices(dets[..n], regions, mapPixel);
      MappedIndicesEnumerate(dets[..n], regions, mapPixel);
      MappedPositionsStep(dets, regions, mapPixel);
      if Mapped(dets[n], regions, mapPixel) {
        var idx := prev + [n];
        assert forall k :: 0 <= k < |prev| ==> idx[k] == prev[k];
        assert forall j: nat :: j in idx <==> j in prev || j == n;
      } else {
        assert MappedIndices(dets, regions, mapPixel) == prev;
      }
    }
  }

  /** Placements follow detection order: the `k`-th placement is the
      `k`-th mapped detection, where the mapped positions are enumerated in
      increasing order. */
  lemma PlacementsInOrder(dets: seq<Detection>, regions: Calibration.Regions, mapPixel: GridMapper)
    ensures var ps := Placements(dets, regions, mapPixel);
            var idx := MappedIndices(dets, regions, mapPixel);
            && |idx| == |ps|
            && (forall a, b :: 0 <= a < b < |idx| ==> idx[a] < idx[b])
            && (forall j: nat :: j in idx <==> j in MappedPositions(dets, regions, mapPixel))
            && (forall k :: 0 <= k < |idx| ==> idx[k] < |dets| && ps[k].det == dets[idx[k]])
  {
    MappedIndicesEnumerate(dets, regions, mapPixel);
    PlacementsPickIndices(dets, regions, mapPixel);
  }

  /** The `k`-th placement is the detection at the `k`-th mapped position. */
  lemma {:induction false} PlacementsPickIndices(dets: seq<Detection>, regions: Calibration.Regions, mapPixel: GridMapper)
    ensures var ps := Placements(dets, regions, mapPixel);
            var idx := MappedIndices(dets, regions, mapPixel);
            && |idx| == |ps|
            && (forall k :: 0 <= k < |idx| ==> idx[k] < |dets| && ps[k].det == dets[idx[k]])
    decreases |dets|
  {
    if dets != [] {
      var n := |dets| - 1;
      var init := dets[..n];
      var prevPs := Placements(init, regions, mapPixel);
      var prevIdx := MappedIndices(init, regions, mapPixel);
      PlacementsPickIndices(init, regions, mapPixel);
      assert forall k :: 0 <= k < n ==> init[k] == dets[k];
      var g := mapPixel(Centre(dets[n]).0, Centre(dets[n]).1, regions);
      if g.Some? {
        var ps := prevPs + [Placement(dets[n], g.value.0, g.value.1)];
        var idx := prevIdx + [n];
        assert Placements(dets, regions, mapPixel) == ps;
        assert MappedIndices(dets, regions, mapPixel) == idx;
        assert forall k :: 0 <= k < |prevIdx| ==> ps[k] == prevPs[k] && idx[k] == prevIdx[k];
      } else {
        assert Placements(dets, regions, mapPixel) == prevPs;
        assert MappedIndices(dets, regions, mapPixel) == prevIdx;
      }
    }
  }

  /** The piece built for the `k`-th placement. */
  function PieceOf(k: nat, p: Placement): Piece {
    Piece(TempId(k), p.det.PieceName(), p.det.Color(), p.playerPos, p.coords)
  }

  /** The index of the last placement at cell `c`, or -1. */
  function LastAt(ps: seq<Placement>, c: Coords): (k: int)
    ensures -1 <= k < |ps|
    ensures k >= 0 ==> ps[k].coords == c && forall j :: k < j < |ps| ==> ps[j].coords != c
    ensures k < 0 ==> forall j :: 0 <= j < |ps| ==> ps[j].coords != c
    decreases |ps|
  {
    if ps == [] then -1
    else if ps[|ps| - 1].coords == c then |ps| - 1
    else LastAt(ps[..|ps| - 1], c)
  }

  /** One more detection extends the placements by its placement, if any. */
  lemma PlacementsStep(dets: seq<Detection>, i: nat, regions: Calibration.Regions, mapPixel: GridMapper)
    requires i < |dets|
    ensures var d := dets[i];
            var prev := Placements(dets[..i], regions, mapPixel);
            Placements(dets[..i + 1], regions, mapPixel) ==
              match mapPixel(Centre(d).0, Centre(d).1, regions)
              case None => prev
              case Some(place) => prev + [Placement(d, place.0, place.1)]
  {
    assert dets[..i + 1][..i] == dets[..i];
  }

  lemma LastAtAppend(ps: seq<Placement>, p: Placement, c: Coords)
    ensures LastAt(ps + [p], c) == if p.coords == c then |ps| else LastAt(ps, c)
  {
    var ps' := ps + [p];
    assert ps'[..|ps|] == ps;
    assert |ps'| - 1 == |ps| && ps'[|ps|] == p;
  }

  lemma TempIdDistinct(a: nat, b: nat)
    requires a != b
    ensures TempId(a) != TempId(b)
  {
    if TempId(a) == TempId(b) {
      assert TempId(a)[5..] == NatToString(a);
      assert TempId(b)[5..] == NatToString(b);
      NatToStringInjective(a, b);
    }
  }

  /** The pieces dictionary after placements `ps`, placed in order. */
  function PiecesOf(ps: seq<Placement>): map<string, Piece>
    decreases |ps|
  {
    if ps == [] then map[]
    else
      var n := |ps| - 1;
      PiecesOf(ps[..n])[TempId(n) := PieceOf(n, ps[n])]
  }

  /** The grid dictionary after placements `ps`, placed in order. */
  function GridOf(ps: seq<Placement>): map<Coords, string>
    decreases |ps|
  {
    if ps == [] then map[]
    else
      var n := |ps| - 1;
      GridOf(ps[..n])[ps[n].coords := TempId(n)]
  }

  /** Every key of the pieces dictionary is one of `temp_0` .. `temp_{n-1}`. */
  lemma {:induction false} PiecesOfKeys(ps: seq<Placement>)
    ensures forall id :: id in PiecesOf(ps) ==> exists k :: 0 <= k < |ps| && id == TempId(k)
    decreases |ps|
  {
    if ps != [] {
      var n := |ps| - 1;
      var init := ps[..n];
      PiecesOfKeys(init);
      assert ps == init + [ps[n]];
      PiecesGridStep(init, ps[n]);
    }
  }

  /** Placement `k` is stored under `temp_k`. */
  lemma {:induction false} PiecesOfLookup(ps: seq<Placement>)
    ensures forall k :: 0 <= k < |ps| ==> TempId(k) in PiecesOf(ps) && PiecesOf(ps)[TempId(k)] == PieceOf(k, ps[k])
    decreases |ps|
  {
    if ps != [] {
      var n := |ps| - 1;
      var init := ps[..n];
      PiecesOfLookup(init);
      var m := PiecesOf(init);
      var big := PiecesOf(ps);
      assert big == m[TempId(n) := PieceOf(n, ps[n])];
      forall k | 0 <= k < |ps|
        ensures TempId(k) in big && big[TempId(k)] == PieceOf(k, ps[k])
      {
        if k < n {
          TempIdDistinct(n, k);
          assert TempId(k) in m && m[TempId(k)] == PieceOf(k, init[k]);
          assert init[k] == ps[k];
        }
      }
    }
  }

  /** Each placement adds a fresh key. */
  lemma {:induction false} PiecesOfCard(ps: seq<Placement>)
    ensures |PiecesOf(ps)| == |ps|
    decreases |ps|
  {
    if ps != [] {
      var n := |ps| - 1;
      var init := ps[..n];
      PiecesOfCard(init);
      PiecesOfKeys(init);
      var m := PiecesOf(init);
      assert TempId(n) !in m by {
        if TempId(n) in m {
          var k :| 0 <= k < n && TempId(n) == TempId(k);
          TempIdDistinct(n, k);
        }
      }
      assert PiecesOf(ps) == m[TempId(n) := PieceOf(n, ps[n])];
    }
  }

  /** A cell is occupied iff some placement went there, and it names the
      last such placement. */
  lemma {:induction false} GridOfSpec(ps: seq<Placement>)
    ensures forall c :: c in GridOf(ps) <==> LastAt(ps, c) >= 0
    ensures forall c :: c in GridOf(ps) ==> GridOf(ps)[c] == TempId(LastAt(ps, c))
    decreases |ps|
  {
    if ps != [] {
      var n := |ps| - 1;
      var init := ps[..n];
      GridOfSpec(init);
      assert ps == init + [ps[n]];
      forall c ensures LastAt(ps, c) == if ps[n].coords == c then n else LastAt(init, c) {
        LastAtAppend(init, ps[n], c);
      }
    }
  }

  lemma PiecesGridStep(ps: seq<Placement>, p: Placement)
    ensures PiecesOf(ps + [p]) == PiecesOf(ps)[TempId(|ps|) := PieceOf(|ps|, p)]
    ensures GridOf(ps + [p]) == GridOf(ps)[p.coords := TempId(|ps|)]
  {
    var ps' := ps + [p];
    assert ps'[..|ps|] == ps;
    assert |ps'| - 1 == |ps| && ps'[|ps|] == p;
  }

  /** What the dictionaries built from placements `ps` hold: one piece per
      placement under `temp_k` and no other key; a cell is occupied iff some
      placement went there, and it names the last one. */
  lemma PreliminaryMeaning(ps: seq<Placement>)
    ensures |PiecesOf(ps)| == |ps|
    ensures forall k :: 0 <= k < |ps| ==> TempId(k) in PiecesOf(ps) && PiecesOf(ps)[TempId(k)] == PieceOf(k, ps[k])
    ensures forall id :: id in PiecesOf(ps) ==> exists k :: 0 <= k < |ps| && id == TempId(k)
    ensures forall c :: c in GridOf(ps) <==> exists k :: 0 <= k < |ps| && ps[k].coords == c
    ensures forall c :: c in GridOf(ps) ==> GridOf(ps)[c] == TempId(LastAt(ps, c))
  {
    PiecesOfCard(ps);
    PiecesOfLookup(ps);
    PiecesOfKeys(ps);
    GridOfSpec(ps);
    forall c | c in GridOf(ps) ensures exists k :: 0 <= k < |ps| && ps[k].coords == c {
      assert ps[LastAt(ps, c)].coords == c;
    }
  }

  /** The pieces dictionary has one entry per mapped detection, and the
      `k`-th mapped detection, in detection order, is stored as `temp_k`
      with the place the mapper gave it. */
  lemma TempIdsFollowDetectionOrder(dets: seq<Detection>, regions: Calibration.Regions, mapPixel: GridMapper)
    ensures var pieces := PiecesOf(Placements(dets, regions, mapPixel));
            var idx := MappedIndices(dets, regions, mapPixel);
            && |pieces| == |MappedPositions(dets, regions, mapPixel)|
            && forall k :: 0 <= k < |idx| ==>
                 && idx[k] < |dets|
                 && TempId(k) in pieces
                 && pieces[TempId(k)].id == TempId(k)
                 && pieces[TempId(k)].name == dets[idx[k]].PieceName()
                 && pieces[TempId(k)].color == dets[idx[k]].Color()
                 && mapPixel(Centre(dets[idx[k]]).0, Centre(dets[idx[k]]).1, regions) ==
                      Some((pieces[TempId(k)].playerPos, pieces[TempId(k)].boardCoords))
  {
    var ps := Placements(dets, regions, mapPixel);
    PlacementsMembers(dets, regions, mapPixel);
    PlacementsInOrder(dets, regions, mapPixel);
    PiecesAtIndices(ps, dets, MappedIndices(dets, regions, mapPixel), regions, mapPixel);
  }

  /** Placement `k` is the detection at position `idx[k]` and carries the
      mapper's place for it, so `temp_k` holds that detection's piece. */
  lemma PiecesAtIndices(ps: seq<Placement>, dets: seq<Detection>, idx: seq<nat>, regions: Calibration.Regions, mapPixel: GridMapper)
    requires |idx| == |ps|
    requires forall k :: 0 <= k < |idx| ==> idx[k] < |dets| && ps[k].det == dets[idx[k]]
    requires forall p :: p in ps ==> mapPixel(Centre(p.det).0, Centre(p.det).1, regions) == Some((p.playerPos, p.coords))
    ensures var pieces := PiecesOf(ps);
            && |pieces| == |ps|
            && forall k :: 0 <= k < |idx| ==>
                 && TempId(k) in pieces
                 && pieces[TempId(k)].id == TempId(k)
                 && pieces[TempId(k)].name == dets[idx[k]].PieceName()
                 && pieces[TempId(k)].color == dets[idx[k]].Color()
                 && mapPixel(Centre(dets[idx[k]]).0, Centre(dets[idx[k]]).1, regions) ==
                      Some((pieces[TempId(k)].playerPos, pieces[TempId(k)].boardCoords))
  {
    var pieces := PiecesOf(ps);
    PreliminaryMeaning(ps);
    forall k | 0 <= k < |idx|
      ensures TempId(k) in pieces && pieces[TempId(k)] == PieceOf(k, ps[k])
      ensures mapPixel(Centre(ps[k].det).0, Centre(ps[k].det).1, regions) == Some((ps[k].playerPos, ps[k].coords))
    {
      assert ps[k] in ps;
    }
  }

  /** What one more detection does to the placements and to both
      dictionaries. */
  lemma BuildStep(dets: seq<Detection>, i: nat, regions: Calibration.Regions, mapPixel: GridMapper)
    requires i < |dets|
    ensures var prev := Placements(dets[..i], regions, mapPixel);
            var next := Placements(dets[..i + 1], regions, mapPixel);
            var d := dets[i];
            var g := mapPixel(Centre(d).0, Centre(d).1, regions);
            && (g.None? ==> next == prev)
            && (g.Some? ==>
                  && |next| == |prev| + 1
                  && PiecesOf(next) == PiecesOf(prev)[TempId(|prev|) := PieceOf(|prev|, Placement(d, g.value.0, g.value.1))]
                  && GridOf(next) == GridOf(prev)[g.value.1 := TempId(|prev|)])
  {
    PlacementsStep(dets, i, regions, mapPixel);
    var d := dets[i];
    var g := mapPixel(Centre(d).0, Centre(d).1, regions);
    if g.Some? {
      PiecesGridStep(Placements(dets[..i], regions, mapPixel), Placement(d, g.value.0, g.value.1));
    }
  }

  /** The loop of `analyze_screenshot`: every mapped detection becomes the
      piece `temp_k` (k counting mapped detections only), and each occupied
      cell names the last piece placed there, whatever its zone. */
  method BuildPreliminaryState(dets: seq<Detection>, regions: Calibration.Regions, mapPixel: GridMapper, timestamp: real)
    returns (st: BoardState)
    ensures st.timestamp == timestamp
    ensures st.pieces == PiecesOf(Placements(dets, regions, mapPixel))
    ensures st.grid == GridOf(Placements(dets, regions, mapPixel))
  {
    var pieces: map<string, Piece> := map[];
    var grid: map<Coords, string> := map[];
    var counter: nat := 0;
    var i := 0;
    while i < |dets|
      invariant 0 <= i <= |dets|
      invariant counter == |Placements(dets[..i], regions, mapPixel)|
      invariant pieces == PiecesOf(Placements(dets[..i], regions, mapPixel))
      invariant grid == GridOf(Placements(dets[..i], regions, mapPixel))
    {
      var det := dets[i];
      var centre := Centre(det);
      var gridInfo := mapPixel(centre.0, centre.1, regions);
      BuildStep(dets, i, regions, mapPixel);
      if gridInfo.Some? {
        var tempId := TempId(counter);
        pieces := pieces[tempId := PieceOf(counter, Placement(det, gridInfo.value.0, gridInfo.value.1))];
        grid := grid[gridInfo.value.1 := tempId];
        counter := counter + 1;
      }
      i := i + 1;
    }
    assert dets[..i] == dets;
    st := BoardState(timestamp, pieces, grid);
  }
}

=== FILE: report.dfy ===
/** The report dictionary the dashboard consumes, and the game events it
    logs.  Every key is read with `.get(key, default)`, so every field is
    optional and a missing key is `None`. */
module Report {
  import opened Options
  import opened Board

  /** One entry of a `piece_line` item's `pieces` list. */
  datatype PieceInfo = PieceInfo(
    text: Option<string>,
    colorTag: Option<string>,
    isEliminated: Option<bool>,
    pieceName: Option<string>,
    color: Option<string>)

  /** One entry of `report_items`: its `type`, `text` and `pieces` keys. */
  datatype ReportItem = ReportItem(
    kind: Option<string>,
    text: Option<string>,
    pieces: Option<seq<PieceInfo>>)

  /** The report: its `total_count` and `report_items` keys. */
  datatype Report = Report(totalCount: Option<int>, items: Option<seq<ReportItem>>)

  /** `report.get('report_items', [])`. */
  function Items(r: Report): seq<ReportItem> {
    r.items.GetOr([])
  }

  /** `item.get('pieces', [])`. */
  function ItemPieces(item: ReportItem): seq<PieceInfo> {
    item.pieces.GetOr([])
  }

  /** The events the tracker reports, by `event_type`, with the fields the
      log line for each type reads.  Any other type is `OtherEvent`. */
  datatype GameEvent =
    | Move(piece: Piece, fromCoords: Coords, toCoords: Coords)
    | Capture(attacker: Piece, defender: Piece, coords: Coords)
    | Trade(piece1: Piece, piece2: Piece, coords: Coords)
    | Bomb(bomb: Piece, target: Piece, coords: Coords)
    | Landmine(victim: Piece, coords: Coords)
    | OtherEvent(eventType: string)
}

=== FILE: sequences.dfy ===
/** Concatenating the results of a function over a sequence: the shape of
    every logging loop that inserts zero or more segments per element. */
module Sequences {

  /** `f` applied to each element in order, the results concatenated. */
  function FlatMap<T, U>(xs: seq<T>, f: T -> seq<U>): seq<U>
    decreases |xs|
  {
    if xs == [] then [] else f(xs[0]) + FlatMap(xs[1..], f)
  }

  lemma {:induction false} FlatMapAppend<T, U>(a: seq<T>, b: seq<T>, f: T -> seq<U>)
    ensures FlatMap(a + b, f) == FlatMap(a, f) + FlatMap(b, f)
    decreases |a|
  {
    if a == [] {
      assert a + b == b;
    } else {
      assert (a + b)[0] == a[0];
      assert (a + b)[1..] == a[1..] + b;
      FlatMapAppend(a[1..], b, f);
    }
  }

  /** A property every piece of every `f(x)` has holds of all of `FlatMap(xs, f)`. */
  lemma {:induction false} FlatMapAll<T, U>(xs: seq<T>, f: T -> seq<U>, p: U -> bool)
    requires forall x, k :: x in xs && 0 <= k < |f(x)| ==> p(f(x)[k])
    ensures forall k :: 0 <= k < |FlatMap(xs, f)| ==> p(FlatMap(xs, f)[k])
    decreases |xs|
  {
    if xs != [] {
      var head, rest := f(xs[0]), FlatMap(xs[1..], f);
      FlatMapAll(xs[1..], f, p);
      forall k | 0 <= k < |head + rest| ensures p((head + rest)[k]) {
        if k < |head| {
          assert (head + rest)[k] == head[k];
        } else {
          assert (head + rest)[k] == rest[k - |head|];
        }
      }
    }
  }
}

=== FILE: suppression.dfy ===
/** Greedy non-maximum suppression of raw template-match hits
    (`standard_non_max_suppression` in game_analyzer.py).

    The hits are first stable-sorted by confidence, highest first.  Then the
    head of the remaining list is kept, and only those other hits whose IoU
    with it is strictly below the threshold survive into the next round. */
module Suppression {
  import opened Geometry

  /** The IoU threshold the analyzer passes when collecting all detections. */
  const IouThreshold: real := 0.3

  /** Highest confidence first. */
  predicate SortedByConfidence(s: seq<Detection>) {
    forall i, j :: 0 <= i < j < |s| ==> s[i].confidence >= s[j].confidence
  }

  /** The hits of `s` with confidence exactly `c`, in their order in `s`.
      A sort is stable exactly when it leaves every such list unchanged. */
  function WithConfidence(s: seq<Detection>, c: real): seq<Detection>
    decreases |s|
  {
    if s == [] then []
    else (if s[0].confidence == c then [s[0]] else []) + WithConfidence(s[1..], c)
  }

  /** `a` is `b` with some elements left out, the rest kept in order. */
  predicate IsSubsequence<T(==)>(a: seq<T>, b: seq<T>)
    decreases |b|
  {
    a == [] || (b != [] && ((a[0] == b[0] && IsSubsequence(a[1..], b[1..])) || IsSubsequence(a, b[1..])))
  }

  /** No two kept boxes overlap by the threshold or more. */
  predicate PairwiseBelow(s: seq<Detection>, t: real) {
    forall i, j :: 0 <= i < j < |s| ==> IoU(BBox(s[i]), BBox(s[j])) < t
  }

  /** Places `d` in front of the first element whose confidence is not
      above its own, so it goes in front of every equal-confidence hit of
      the sorted tail; since `d` precedes that tail in the input, this is
      what keeps the sort stable. */
  function Insert(d: Detection, s: seq<Detection>): seq<Detection>
    decreases |s|
  {
    if s == [] || d.confidence >= s[0].confidence then [d] + s
    else [s[0]] + Insert(d, s[1..])
  }

  /** Insertion adds `d` and nothing else. */
  lemma {:induction false} InsertMultiset(d: Detection, s: seq<Detection>)
    ensures multiset(Insert(d, s)) == multiset(s) + multiset{d}
    decreases |s|
  {
    if !(s == [] || d.confidence >= s[0].confidence) {
      InsertMultiset(d, s[1..]);
      assert s == [s[0]] + s[1..];
    }
  }

  /** Insertion into a sorted list keeps it sorted; the head is `d` or the
      old head. */
  lemma {:induction false} InsertSorted(d: Detection, s: seq<Detection>)
    requires SortedByConfidence(s)
    ensures SortedByConfidence(Insert(d, s))
    ensures Insert(d, s)[0] == d || (s != [] && Insert(d, s)[0] == s[0])
    decreases |s|
  {
    if !(s == [] || d.confidence >= s[0].confidence) {
      var rest := Insert(d, s[1..]);
      InsertSorted(d, s[1..]);
      ConsSorted(s[0], rest);
    }
  }

  /** A head no lower than the sorted tail's head keeps the list sorted. */
  lemma ConsSorted(x: Detection, s: seq<Detection>)
    requires SortedByConfidence(s)
    requires s != [] ==> x.confidence >= s[0].confidence
    ensures SortedByConfidence([x] + s)
  {
    var r := [x] + s;
    forall i, j | 0 <= i < j < |r| ensures r[i].confidence >= r[j].confidence {
      assert r[j] == s[j - 1];
      if i > 0 { assert r[i] == s[i - 1]; }
      else if j > 1 { assert s[0].confidence >= s[j - 1].confidence; }
    }
  }

  /** `d` goes in front of every equal-confidence hit of the sorted tail. */
  lemma {:induction false} InsertStable(d: Detection, s: seq<Detection>, c: real)
    ensures WithConfidence(Insert(d, s), c) ==
            (if d.confidence == c then [d] + WithConfidence(s, c) else WithConfidence(s, c))
    decreases |s|
  {
    if s == [] || d.confidence >= s[0].confidence {
      assert ([d] + s)[1..] == s;
    } else {
      var rest := Insert(d, s[1..]);
      InsertStable(d, s[1..], c);
      assert ([s[0]] + rest)[1..] == rest;
      assert s[0].confidence != c || d.confidence != c;
    }
  }

  /** Python's `list.sort(key=confidence, reverse=True)`: a stable sort,
      highest confidence first, equal confidences in their original order. */
  function SortByConfidence(s: seq<Detection>): (r: seq<Detection>)
    ensures SortedByConfidence(r)
    ensures multiset(r) == multiset(s)
    ensures forall c :: WithConfidence(r, c) == WithConfidence(s, c)
    decreases |s|
  {
    if s == [] then [] else
      var rest := SortByConfidence(s[1..]);
      assert s == [s[0]] + s[1..];
      InsertSorted(s[0], rest);
      InsertMultiset(s[0], rest);
      InsertWithConfidence(s, rest);
      Insert(s[0], rest)
  }

  lemma InsertWithConfidence(s: seq<Detection>, rest: seq<Detection>)
    requires s != [] && forall c :: WithConfidence(rest, c) == WithConfidence(s[1..], c)
    ensures forall c :: WithConfidence(Insert(s[0], rest), c) == WithConfidence(s, c)
  {
    forall c ensures WithConfidence(Insert(s[0], rest), c) == WithConfidence(s, c) {
      InsertStable(s[0], rest, c);
    }
  }

  /** The hits of `rest` whose IoU with `best` is strictly below `t`. */
  function Survivors(best: Detection, rest: seq<Detection>, t: real): (r: seq<Detection>)
    ensures forall o :: o in r <==> o in rest && IoU(BBox(best), BBox(o)) < t
    ensures |r| <= |rest|
    decreases |rest|
  {
    if rest == [] then []
    else if IoU(BBox(best), BBox(rest[0])) < t then
      var tail := Survivors(best, rest[1..], t);
      assert forall j :: 0 <= j < |tail| ==> tail[j] in rest[1..];
      [rest[0]] + tail
    else
      Survivors(best, rest[1..], t)
  }

  /** Filtering keeps the survivors in their order. */
  lemma {:induction false} SurvivorsSubsequence(best: Detection, rest: seq<Detection>, t: real)
    ensures IsSubsequence(Survivors(best, rest, t), rest)
    ensures SortedByConfidence(rest) ==> SortedByConfidence(Survivors(best, rest, t))
    decreases |rest|
  {
    if rest != [] {
      var tail := Survivors(best, rest[1..], t);
      SurvivorsSubsequence(best, rest[1..], t);
      if IoU(BBox(best), BBox(rest[0])) < t {
        assert ([rest[0]] + tail)[1..] == tail;
        if SortedByConfidence(rest) {
          assert SortedByConfidence(rest[1..]);
          if tail != [] {
            assert tail[0] in rest[1..];
          }
          ConsSorted(rest[0], tail);
        }
      } else if SortedByConfidence(rest) {
        assert SortedByConfidence(rest[1..]);
      }
    }
  }

  /** The `while detections:` loop: keep the head, filter the rest against it. */
  function Greedy(s: seq<Detection>, t: real): (r: seq<Detection>)
    ensures forall d :: d in r ==> d in s
    ensures s != [] ==> r != [] && r[0] == s[0]
    ensures PairwiseBelow(r, t)
    ensures SortedByConfidence(s) ==> SortedByConfidence(r)
    decreases |s|
  {
    if s == [] then []
    else
      var surv := Survivors(s[0], s[1..], t);
      var kept := Greedy(surv, t);
      SurvivorsSubsequence(s[0], s[1..], t);
      KeepHeadBelow(s, kept, t);
      KeepHeadSorted(s, kept);
      [s[0]] + kept
  }

  /** Prepending the head to what survived it keeps the kept hits pairwise
      below the threshold. */
  lemma KeepHeadBelow(s: seq<Detection>, kept: seq<Detection>, t: real)
    requires s != []
    requires forall d :: d in kept ==> d in s[1..] && IoU(BBox(s[0]), BBox(d)) < t
    requires PairwiseBelow(kept, t)
    ensures forall d :: d in [s[0]] + kept ==> d in s
    ensures PairwiseBelow([s[0]] + kept, t)
  {
    var r := [s[0]] + kept;
    forall i, j | 0 <= i < j < |r| ensures IoU(BBox(r[i]), BBox(r[j])) < t {
      assert r[j] == kept[j - 1];
      if i > 0 {
        assert r[i] == kept[i - 1];
      } else {
        assert kept[j - 1] in kept;
      }
    }
  }

  /** Prepending the head of a sorted list to a sorted selection of its
      tail keeps it sorted. */
  lemma KeepHeadSorted(s: seq<Detection>, kept: seq<Detection>)
    requires s != []
    requires forall d :: d in kept ==> d in s[1..]
    requires SortedByConfidence(s) ==> SortedByConfidence(kept)
    ensures SortedByConfidence(s) ==> SortedByConfidence([s[0]] + kept)
  {
    if SortedByConfidence(s) && kept != [] {
      assert kept[0] in s[1..];
      var k :| 0 <= k < |s[1..]| && s[1..][k] == kept[0];
      assert s[k + 1] == kept[0];
      ConsSorted(s[0], kept);
    } else if SortedByConfidence(s) {
      ConsSorted(s[0], kept);
    }
  }

  /** `standard_non_max_suppression(detections, t)`. */
  function NonMaxSuppression(ds: seq<Detection>, t: real): (r: seq<Detection>)
    ensures r == [] <==> ds == []
    ensures forall d :: d in r ==> d in ds
    ensures PairwiseBelow(r, t)
    ensures SortedByConfidence(r)
    ensures r != [] ==> forall d :: d in ds ==> r[0].confidence >= d.confidence
  {
    if ds == [] then []
    else
      var sorted := SortByConfidence(ds);
      SortedHeadIsMax(sorted, ds);
      Greedy(sorted, t)
  }

  /** The head of a sorted permutation of `ds` is a most confident hit of `ds`. */
  lemma SortedHeadIsMax(s: seq<Detection>, ds: seq<Detection>)
    requires SortedByConfidence(s) && multiset(s) == multiset(ds)
    ensures |s| == |ds|
    ensures forall d :: d in ds <==> d in s
    ensures s != [] ==> forall d :: d in ds ==> s[0].confidence >= d.confidence
  {
    assert |multiset(s)| == |multiset(ds)|;
    forall d ensures d in ds <==> d in s {
      assert d in ds <==> d in multiset(ds);
      assert d in s <==> d in multiset(s);
    }
    if s != [] {
      forall d | d in ds ensures s[0].confidence >= d.confidence {
        var i :| 0 <= i < |s| && s[i] == d;
      }
    }
  }

  /** `get_all_detections` after template matching: suppression at 0.3.  No
      two returned hits overlap with IoU 0.3 or more, and every hit left out
      overlaps that much with a returned hit at least as confident. */
  function AllDetections(raw: seq<Detection>): (r: seq<Detection>)
    ensures r == [] <==> raw == []
    ensures forall d :: d in r ==> d in raw
    ensures forall i, j :: 0 <= i < j < |r| ==> IoU(BBox(r[i]), BBox(r[j])) < 0.3
    ensures forall d :: d in raw && d !in r ==>
      exists k :: k in r && k.confidence >= d.confidence && IoU(BBox(k), BBox(d)) >= 0.3
  {
    NmsCoversDropped(raw, IouThreshold);
    NonMaxSuppression(raw, IouThreshold)
  }

  lemma {:induction false} SubsequenceTransitive<T>(a: seq<T>, b: seq<T>, c: seq<T>)
    requires IsSubsequence(a, b) && IsSubsequence(b, c)
    ensures IsSubsequence(a, c)
    decreases |c|
  {
    if a != [] {
      if IsSubsequence(b, c[1..]) {
        SubsequenceTransitive(a, b, c[1..]);
      } else if a[0] == b[0] && IsSubsequence(a[1..], b[1..]) {
        SubsequenceTransitive(a[1..], b[1..], c[1..]);
      } else {
        SubsequenceTransitive(a, b[1..], c[1..]);
      }
    }
  }

  lemma {:induction false} GreedyIsSubsequence(s: seq<Detection>, t: real)
    ensures IsSubsequence(Greedy(s, t), s)
    decreases |s|
  {
    if s != [] {
      var surv := Survivors(s[0], s[1..], t);
      GreedyIsSubsequence(surv, t);
      SurvivorsSubsequence(s[0], s[1..], t);
      SubsequenceTransitive(Greedy(surv, t), surv, s[1..]);
      assert Greedy(s, t)[1..] == Greedy(surv, t);
    }
  }

  /** The output keeps the stable-sorted input's order, leaving hits out. */
  lemma NmsIsSubsequenceOfSorted(ds: seq<Detection>, t: real)
    ensures IsSubsequence(NonMaxSuppression(ds, t), SortByConfidence(ds))
  {
    if ds != [] {
      GreedyIsSubsequence(SortByConfidence(ds), t);
    }
  }

  lemma {:induction false} GreedyCoversDropped(s: seq<Detection>, t: real)
    requires SortedByConfidence(s)
    ensures forall d :: d in s && d !in Greedy(s, t) ==>
      exists k :: k in Greedy(s, t) && k.confidence >= d.confidence && IoU(BBox(k), BBox(d)) >= t
    decreases |s|
  {
    if s != [] {
      var surv := Survivors(s[0], s[1..], t);
      var out := Greedy(s, t);
      SurvivorsSubsequence(s[0], s[1..], t);
      GreedyCoversDropped(surv, t);
      assert out == [s[0]] + Greedy(surv, t);
      forall d | d in s && d !in out
        ensures exists k :: k in out && k.confidence >= d.confidence && IoU(BBox(k), BBox(d)) >= t
      {
        var i :| 0 <= i < |s| && s[i] == d;
        assert i > 0;
        if d in surv {
          var k :| k in Greedy(surv, t) && k.confidence >= d.confidence && IoU(BBox(k), BBox(d)) >= t;
          assert k in out;
        } else {
          assert s[0] in out;
        }
      }
    }
  }

  /** Filtering distributes over concatenation. */
  lemma {:induction false} SurvivorsAppend(best: Detection, a: seq<Detection>, b: seq<Detection>, t: real)
    ensures Survivors(best, a + b, t) == Survivors(best, a, t) + Survivors(best, b, t)
    decreases |a|
  {
    if a == [] {
      assert a + b == b;
    } else {
      assert (a + b)[0] == a[0];
      assert (a + b)[1..] == a[1..] + b;
      SurvivorsAppend(best, a[1..], b, t);
    }
  }

  /** A surviving hit splits the survivors into those before and after it. */
  lemma SurvivorsAround(best: Detection, a: seq<Detection>, x: Detection, b: seq<Detection>, t: real)
    requires IoU(BBox(best), BBox(x)) < t
    ensures Survivors(best, a + [x] + b, t) == Survivors(best, a, t) + [x] + Survivors(best, b, t)
  {
    SurvivorsAppend(best, a + [x], b, t);
    SurvivorsAppend(best, a, [x], t);
    assert [x][1..] == [];
    assert Survivors(best, [x], t) == [x];
  }

  /** Every survivor of `s[1..j]` is some `s[i]` with `1 <= i < j`. */
  lemma SurvivorsBefore(s: seq<Detection>, j: nat, t: real)
    requires 0 < j <= |s|
    ensures var sa := Survivors(s[0], s[1..j], t);
            forall q :: 0 <= q < |sa| ==> exists i :: 1 <= i < j && s[i] == sa[q]
  {
    var a := s[1..j];
    var sa := Survivors(s[0], a, t);
    forall q | 0 <= q < |sa| ensures exists i :: 1 <= i < j && s[i] == sa[q] {
      assert sa[q] in sa;
      var k :| 0 <= k < |a| && a[k] == sa[q];
      assert s[k + 1] == a[k];
    }
  }

  /** A hit `s[j]` that survives the head sits in the survivors at the
      position counted by the survivors before it, and every survivor in
      front of it comes from `s[1..j]`. */
  lemma SurvivorPosition(s: seq<Detection>, j: nat, t: real)
    requires 0 < j < |s| && IoU(BBox(s[0]), BBox(s[j])) < t
    ensures var surv := Survivors(s[0], s[1..], t);
            var p := |Survivors(s[0], s[1..j], t)|;
            && p < |surv| && surv[p] == s[j]
            && forall q :: 0 <= q < p ==> exists i :: 1 <= i < j && s[i] == surv[q]
  {
    var a, b := s[1..j], s[j + 1..];
    assert s[1..] == a + [s[j]] + b;
    SurvivorsAround(s[0], a, s[j], b, t);
    var sa := Survivors(s[0], a, t);
    var surv := sa + [s[j]] + Survivors(s[0], b, t);
    assert forall q :: 0 <= q < |sa| ==> surv[q] == sa[q];
    assert surv[|sa|] == s[j];
    SurvivorsBefore(s, j, t);
  }

  /** A hit is dropped only because of an earlier kept hit: for every
      dropped `s[j]` some kept `s[i]` with `i < j` overlaps it at the
      threshold or more. */
  predicate DroppedByEarlier(s: seq<Detection>, out: seq<Detection>, t: real) {
    forall j :: 0 <= j < |s| && s[j] !in out ==>
      exists i :: 0 <= i < j && s[i] in out && IoU(BBox(s[i]), BBox(s[j])) >= t
  }

  /** One dropped hit of `s`, given the property for the survivors. */
  lemma CoverOne(s: seq<Detection>, t: real, j: nat)
    requires j < |s| && s[j] !in Greedy(s, t)
    requires DroppedByEarlier(Survivors(s[0], s[1..], t), Greedy(Survivors(s[0], s[1..], t), t), t)
    ensures exists i :: 0 <= i < j && s[i] in Greedy(s, t) && IoU(BBox(s[i]), BBox(s[j])) >= t
  {
    var surv := Survivors(s[0], s[1..], t);
    var kept := Greedy(surv, t);
    assert Greedy(s, t) == [s[0]] + kept;
    CoverWith(s, surv, kept, t, j);
  }

  /** The step of `CoverOne` with the kept survivors as a parameter: a hit
      neither the head nor kept among the survivors is covered by the head
      or by a kept survivor in front of it. */
  lemma CoverWith(s: seq<Detection>, surv: seq<Detection>, kept: seq<Detection>, t: real, j: nat)
    requires j < |s| && surv == Survivors(s[0], s[1..], t)
    requires DroppedByEarlier(surv, kept, t)
    requires s[j] !in [s[0]] + kept
    ensures exists i :: 0 <= i < j && s[i] in [s[0]] + kept && IoU(BBox(s[i]), BBox(s[j])) >= t
  {
    var out := [s[0]] + kept;
    assert s[0] in out;
    assert 0 < j;
    if IoU(BBox(s[0]), BBox(s[j])) < t {
      SurvivorPosition(s, j, t);
      var i := CoveringSurvivor(s, surv, kept, t, j, |Survivors(s[0], s[1..j], t)|);
      assert s[i] in out;
    }
  }

  /** A survivor of the head that is not kept is covered by a kept
      survivor in front of it; the index of that survivor in `s`. Here
      `surv[p]` is `s[j]`, and every survivor before it comes from
      `s[1..j]`. */
  lemma CoveringSurvivor(s: seq<Detection>, surv: seq<Detection>, kept: seq<Detection>, t: real, j: nat, p: nat)
    returns (i: nat)
    requires j < |s| && p < |surv| && surv[p] == s[j]
    requires forall q :: 0 <= q < p ==> exists i' :: 1 <= i' < j && s[i'] == surv[q]
    requires DroppedByEarlier(surv, kept, t)
    requires s[j] !in kept
    ensures 1 <= i < j && s[i] in kept && IoU(BBox(s[i]), BBox(s[j])) >= t
  {
    var q :| 0 <= q < p && surv[q] in kept && IoU(BBox(surv[q]), BBox(surv[p])) >= t;
    i :| 1 <= i < j && s[i] == surv[q];
  }

  /** The greedy loop drops a hit only because of an earlier kept hit. */
  lemma {:induction false} GreedyDropsByEarlier(s: seq<Detection>, t: real)
    ensures DroppedByEarlier(s, Greedy(s, t), t)
    decreases |s|
  {
    if s != [] {
      var surv := Survivors(s[0], s[1..], t);
      GreedyDropsByEarlier(surv, t);
      forall j | 0 <= j < |s| && s[j] !in Greedy(s, t)
        ensures exists i :: 0 <= i < j && s[i] in Greedy(s, t) && IoU(BBox(s[i]), BBox(s[j])) >= t
      {
        CoverOne(s, t, j);
      }
    }
  }

  /** Every suppressed hit overlaps, at the threshold or more, a kept hit
      of at least its confidence that comes before it in the stable-sorted
      input. */
  lemma NmsCoversDropped(ds: seq<Detection>, t: real)
    ensures forall d :: d in ds && d !in NonMaxSuppression(ds, t) ==>
      exists k :: k in NonMaxSuppression(ds, t) && k.confidence >= d.confidence && IoU(BBox(k), BBox(d)) >= t
    ensures DroppedByEarlier(SortByConfidence(ds), NonMaxSuppression(ds, t), t)
  {
    if ds != [] {
      var sorted := SortByConfidence(ds);
      GreedyCoversDropped(sorted, t);
      GreedyDropsByEarlier(sorted, t);
      SortedHeadIsMax(sorted, ds);
    }
  }

  lemma {:induction false} SortSortedIsIdentity(s: seq<Detection>)
    requires SortedByConfidence(s)
    ensures SortByConfidence(s) == s
    decreases |s|
  {
    if s != [] {
      SortSortedIsIdentity(s[1..]);
      assert s == [s[0]] + s[1..];
    }
  }

  lemma {:induction false} SurvivorsKeepAll(best: Detection, rest: seq<Detection>, t: real)
    requires forall o :: o in rest ==> IoU(BBox(best), BBox(o)) < t
    ensures Survivors(best, rest, t) == rest
    decreases |rest|
  {
    if rest != [] {
      assert rest[0] in rest;
      SurvivorsKeepAll(best, rest[1..], t);
      assert rest == [rest[0]] + rest[1..];
    }
  }

  lemma {:induction false} GreedyFixesPairwiseBelow(p: seq<Detection>, t: real)
    requires PairwiseBelow(p, t)
    ensures Greedy(p, t) == p
    decreases |p|
  {
    if p != [] {
      PairwiseBelowSplit(p, t);
      SurvivorsKeepAll(p[0], p[1..], t);
      GreedyFixesPairwiseBelow(p[1..], t);
      calc {
        Greedy(p, t);
        [p[0]] + Greedy(Survivors(p[0], p[1..], t), t);
        [p[0]] + p[1..];
        p;
      }
    }
  }

  /** A pairwise-below list's head is below each later element, and its
      tail is pairwise below. */
  lemma PairwiseBelowSplit(p: seq<Detection>, t: real)
    requires p != [] && PairwiseBelow(p, t)
    ensures forall o :: o in p[1..] ==> IoU(BBox(p[0]), BBox(o)) < t
    ensures PairwiseBelow(p[1..], t)
  {
    forall o | o in p[1..] ensures IoU(BBox(p[0]), BBox(o)) < t {
      var j :| 0 <= j < |p[1..]| && p[1..][j] == o;
      assert p[j + 1] == o;
    }
    forall i, j | 0 <= i < j < |p[1..]|
      ensures IoU(BBox(p[1..][i]), BBox(p[1..][j])) < t
    {
      assert p[1..][i] == p[i + 1] && p[1..][j] == p[j + 1];
    }
  }

  /** Suppressing an already suppressed list changes nothing. */
  lemma NmsIdempotent(ds: seq<Detection>, t: real)
    ensures NonMaxSuppression(NonMaxSuppression(ds, t), t) == NonMaxSuppression(ds, t)
  {
    var r := NonMaxSuppression(ds, t);
    if r != [] {
      SortSortedIsIdentity(r);
      GreedyFixesPairwiseBelow(r, t);
    }
  }

  /** The keep test is strict: of two hits whose IoU equals the threshold
      exactly, only the more confident one (the first on a tie) is kept;
      strictly below the threshold, both are kept. */
  lemma NmsPairAtThreshold(a: Detection, b: Detection, t: real)
    requires a.confidence >= b.confidence
    ensures IoU(BBox(a), BBox(b)) >= t ==> NonMaxSuppression([a, b], t) == [a]
    ensures IoU(BBox(a), BBox(b)) < t ==> NonMaxSuppression([a, b], t) == [a, b]
  {
    assert [a, b][1..] == [b];
    assert [b][1..] == [];
    assert SortByConfidence([b]) == [b];
    assert SortByConfidence([a, b]) == [a, b];
    assert Greedy([a, b], t) == [a] + Greedy(Survivors(a, [b], t), t);
  }

  /** Either order of a kept pair is below the threshold. */
  lemma PairwiseBelowEitherOrder(s: seq<Detection>, t: real)
    requires PairwiseBelow(s, t)
    ensures forall i, j :: 0 <= i < |s| && 0 <= j < |s| && i != j ==> IoU(BBox(s[i]), BBox(s[j])) < t
  {
    forall i, j | 0 <= i < |s| && 0 <= j < |s| && i != j
      ensures IoU(BBox(s[i]), BBox(s[j])) < t
    {
      IoUSymmetric(BBox(s[i]), BBox(s[j]));
    }
  }
}

=== FILE: thresholds.dfy ===
/** The threshold stepper of modules/core/threshold_manager.py.

    Each of the two thresholds is held twice: as a float field and as the
    text of a read-only entry.  A step reads the text back, compares it with
    the range bound, adds or subtracts 0.1 rounded to one decimal, writes the
    new value to both places and reports it through a callback.  All values
    involved are multiples of 0.1, so the model keeps them in integer tenths
    and the text as the one-decimal rendering of those tenths. */
module Thresholds {
  import opened Options
  import opened Decimal

  /** `f"{t / 10:.1f}"` for a non-negative number of tenths. */
  function FormatTenths(t: nat): string {
    NatToString(t / 10) + "." + [DigitChar(t % 10)]
  }

  /** Reads back a one-decimal rendering; `None` for any other text. */
  function ParseTenths(s: string): Option<nat> {
    if |s| >= 3 && s[|s| - 2] == '.' && IsDigit(s[|s| - 1]) then
      match ParseNat(s[..|s| - 2])
      case Some(whole) => Some(whole * 10 + DigitValue(s[|s| - 1]))
      case None => None
    else
      None
  }

  /** What is written into the entry is read back as the same value. */
  lemma FormatParseRoundTrip(t: nat)
    ensures ParseTenths(FormatTenths(t)) == Some(t)
  {
    var s := FormatTenths(t);
    assert s[..|s| - 2] == NatToString(t / 10);
    assert s[|s| - 1] == DigitChar(t % 10);
    ParseNatToString(t / 10);
    DigitRoundTrip(t % 10);
  }

  /** Distinct values never share a rendering. */
  lemma FormatTenthsInjective(a: nat, b: nat)
    ensures FormatTenths(a) == FormatTenths(b) ==> a == b
  {
    FormatParseRoundTrip(a);
    FormatParseRoundTrip(b);
  }

  datatype Thresholds = Thresholds(
    matchText: string,
    matchTenths: nat,
    nmsText: string,
    nmsTenths: nat)

  /** A callback invocation, by the threshold it reports and its new value;
      `Message` and `Tag` give the text and tag the callback is called with. */
  datatype Notice = MatchAdjusted(tenths: nat) | NmsAdjusted(tenths: nat)

  /** The state after a button press, and the callback it fired, if any. */
  datatype Step = Step(state: Thresholds, notice: Option<Notice>)

  const MatchLow := 5
  const MatchHigh := 9
  const NmsLow := 1
  const NmsHigh := 9

  /** Initial values: match 0.8, NMS 0.3, each also in its entry. */
  function Init(): (s: Thresholds)
    ensures s.matchText == "0.8" && s.nmsText == "0.3"
  {
    Thresholds("0.8", 8, "0.3", 3)
  }

  /** The entry text and the field agree, and the value lies in its range
      (the initial value 0.8 and 0.3 is inside both ranges). */
  ghost predicate Inv(s: Thresholds) {
    && MatchLow <= s.matchTenths <= MatchHigh
    && NmsLow <= s.nmsTenths <= NmsHigh
    && s.matchText == FormatTenths(s.matchTenths)
    && s.nmsText == FormatTenths(s.nmsTenths)
  }

  lemma InitInv()
    ensures Inv(Init())
    ensures Init().matchTenths == 8 && Init().nmsTenths == 3
  {
    assert FormatTenths(8) == "0.8";
    assert FormatTenths(3) == "0.3";
  }

  function Message(n: Notice): string {
    match n
    case MatchAdjusted(t) => "[信息] 匹配阈值已调整为: " + FormatTenths(t)
    case NmsAdjusted(t) => "[信息] NMS阈值已调整为: " + FormatTenths(t)
  }

  function Tag(n: Notice): string {
    "h_default"
  }

  /** ▲ next to the match threshold: +0.1 while the entry reads below 0.9.
      Text that does not read as a number leaves everything as it was. */
  function IncreaseMatch(s: Thresholds): (r: Step)
    ensures r.state.nmsText == s.nmsText && r.state.nmsTenths == s.nmsTenths
    ensures r.notice.Some? <==> (ParseTenths(s.matchText).Some? && ParseTenths(s.matchText).value < MatchHigh)
    ensures r.notice.None? ==> r.state == s
    ensures r.notice.Some? ==>
      var t := ParseTenths(s.matchText).value + 1;
      r.state.matchTenths == t && r.state.matchText == FormatTenths(r.state.matchTenths) && r.notice == Some(MatchAdjusted(t))
  {
    match ParseTenths(s.matchText)
    case Some(current) =>
      if current < MatchHigh then
        var t := current + 1;
        FormatParseRoundTrip(t);
        Step(s.(matchText := FormatTenths(t), matchTenths := t), Some(MatchAdjusted(t)))
      else Step(s, None)
    case None => Step(s, None)
  }

  /** ▼ next to the match threshold: -0.1 while the entry reads above 0.5. */
  function DecreaseMatch(s: Thresholds): (r: Step)
    ensures r.state.nmsText == s.nmsText && r.state.nmsTenths == s.nmsTenths
    ensures r.notice.Some? <==> (ParseTenths(s.matchText).Some? && ParseTenths(s.matchText).value > MatchLow)
    ensures r.notice.None? ==> r.state == s
    ensures r.notice.Some? ==>
      var t := ParseTenths(s.matchText).value - 1;
      r.state.matchTenths == t && r.state.matchText == FormatTenths(r.state.matchTenths) && r.notice == Some(MatchAdjusted(r.state.matchTenths))
  {
    match ParseTenths(s.matchText)
    case Some(current) =>
      if current > MatchLow then
        var t: nat := current - 1;
        FormatParseRoundTrip(t);
        Step(s.(matchText := FormatTenths(t), matchTenths := t), Some(MatchAdjusted(t)))
      else Step(s, None)
    case None => Step(s, None)
  }

  /** ▲ next to the NMS threshold: +0.1 while the entry reads below 0.9. */
  function IncreaseNms(s: Thresholds): (r: Step)
    ensures r.state.matchText == s.matchText && r.state.matchTenths == s.matchTenths
    ensures r.notice.Some? <==> (ParseTenths(s.nmsText).Some? && ParseTenths(s.nmsText).value < NmsHigh)
    ensures r.notice.None? ==> r.state == s
    ensures r.notice.Some? ==>
      var t := ParseTenths(s.nmsText).value + 1;
      r.state.nmsTenths == t && r.state.nmsText == FormatTenths(r.state.nmsTenths) && r.notice == Some(NmsAdjusted(t))
  {
    match ParseTenths(s.nmsText)
    case Some(current) =>
      if current < NmsHigh then
        var t := current + 1;
        FormatParseRoundTrip(t);
        Step(s.(nmsText := FormatTenths(t), nmsTenths := t), Some(NmsAdjusted(t)))
      else Step(s, None)
    case None => Step(s, None)
  }

  /** ▼ next to the NMS threshold: -0.1 while the entry reads above 0.1. */
  function DecreaseNms(s: Thresholds): (r: Step)
    ensures r.state.matchText == s.matchText && r.state.matchTenths == s.matchTenths
    ensures r.notice.Some? <==> (ParseTenths(s.nmsText).Some? && ParseTenths(s.nmsText).value > NmsLow)
    ensures r.notice.None? ==> r.state == s
    ensures r.notice.Some? ==>
      var t := ParseTenths(s.nmsText).value - 1;
      r.state.nmsTenths == t && r.state.nmsText == FormatTenths(r.state.nmsTenths) && r.notice == Some(NmsAdjusted(r.state.nmsTenths))
  {
    match ParseTenths(s.nmsText)
    case Some(current) =>
      if current > NmsLow then
        var t: nat := current - 1;
        FormatParseRoundTrip(t);
        Step(s.(nmsText := FormatTenths(t), nmsTenths := t), Some(NmsAdjusted(t)))
      else Step(s, None)
    case None => Step(s, None)
  }

  /** `get_thresholds`: the two fields, as the ratios they stand for. */
  function GetThresholds(s: Thresholds): (r: (real, real))
    ensures r.0 * 10.0 == s.matchTenths as real && r.1 * 10.0 == s.nmsTenths as real
  {
    (s.matchTenths as real / 10.0, s.nmsTenths as real / 10.0)
  }

  /** Before any press the thresholds are 0.8 and 0.3. */
  lemma InitialThresholds()
    ensures GetThresholds(Init()) == (0.8, 0.3)
  {
  }

  /** Under the invariant the fields are what the entries show, so
      `get_thresholds` returns the last values written to the entries. */
  lemma ThresholdsMatchEntries(s: Thresholds)
    requires Inv(s)
    ensures ParseTenths(s.matchText) == Some(s.matchTenths)
    ensures ParseTenths(s.nmsText) == Some(s.nmsTenths)
    ensures GetThresholds(s).0 * 10.0 == ParseTenths(s.matchText).value as real
    ensures GetThresholds(s).1 * 10.0 == ParseTenths(s.nmsText).value as real
  {
    FormatParseRoundTrip(s.matchTenths);
    FormatParseRoundTrip(s.nmsTenths);
  }

  datatype Button = MatchUp | MatchDown | NmsUp | NmsDown

  function Press(s: Thresholds, b: Button): Step {
    match b
    case MatchUp => IncreaseMatch(s)
    case MatchDown => DecreaseMatch(s)
    case NmsUp => IncreaseNms(s)
    case NmsDown => DecreaseNms(s)
  }

  /** Every press keeps both values in range and their entries in step;
      a press changes the state exactly when it fires its callback. */
  lemma PressPreservesInv(s: Thresholds, b: Button)
    requires Inv(s)
    ensures Inv(Press(s, b).state)
    ensures Press(s, b).notice.Some? <==> Press(s, b).state != s
  {
    ThresholdsMatchEntries(s);
    var r := Press(s, b);
    if r.notice.Some? {
      var s' := r.state;
      match b
      case MatchUp => assert s'.matchTenths == s.matchTenths + 1;
      case MatchDown => assert s'.matchTenths == s.matchTenths - 1;
      case NmsUp => assert s'.nmsTenths == s.nmsTenths + 1;
      case NmsDown => assert s'.nmsTenths == s.nmsTenths - 1;
    }
  }

  /** At a range end the press is a no-op: nothing changes, no callback. */
  lemma BoundaryIsNoOp(s: Thresholds)
    requires Inv(s)
    ensures s.matchTenths == MatchHigh ==> IncreaseMatch(s) == Step(s, None)
    ensures s.matchTenths == MatchLow ==> DecreaseMatch(s) == Step(s, None)
    ensures s.nmsTenths == NmsHigh ==> IncreaseNms(s) == Step(s, None)
    ensures s.nmsTenths == NmsLow ==> DecreaseNms(s) == Step(s, None)
  {
    ThresholdsMatchEntries(s);
  }

  /** Up then down restores the match threshold below its upper bound. */
  lemma MatchUpDown(s: Thresholds)
    requires Inv(s) && s.matchTenths < MatchHigh
    ensures DecreaseMatch(IncreaseMatch(s).state).state == s
  {
    ThresholdsMatchEntries(s);
    var m := s.matchTenths;
    var up := IncreaseMatch(s).state;
    assert up.matchTenths == m + 1 && up.matchText == FormatTenths(m + 1);
    FormatParseRoundTrip(m + 1);
    assert ParseTenths(up.matchText) == Some(m + 1);
    var down := DecreaseMatch(up).state;
    assert down.matchTenths == m;
    assert down.matchText == FormatTenths(m);
  }

  /** Down then up restores the match threshold above its lower bound. */
  lemma MatchDownUp(s: Thresholds)
    requires Inv(s) && s.matchTenths > MatchLow
    ensures IncreaseMatch(DecreaseMatch(s).state).state == s
  {
    ThresholdsMatchEntries(s);
    var m: nat := s.matchTenths - 1;
    var down := DecreaseMatch(s).state;
    assert down.matchTenths == m && down.matchText == FormatTenths(m);
    FormatParseRoundTrip(m);
    assert ParseTenths(down.matchText) == Some(m);
    var up := IncreaseMatch(down).state;
    assert up.matchTenths == m + 1;
    assert up.matchText == FormatTenths(m + 1);
  }

  /** Up then down restores the NMS threshold below its upper bound. */
  lemma NmsUpDown(s: Thresholds)
    requires Inv(s) && s.nmsTenths < NmsHigh
    ensures DecreaseNms(IncreaseNms(s).state).state == s
  {
    ThresholdsMatchEntries(s);
    var m := s.nmsTenths;
    var up := IncreaseNms(s).state;
    assert up.nmsTenths == m + 1 && up.nmsText == FormatTenths(m + 1);
    FormatParseRoundTrip(m + 1);
    assert ParseTenths(up.nmsText) == Some(m + 1);
    var down := DecreaseNms(up).state;
    assert down.nmsTenths == m;
    assert down.nmsText == FormatTenths(m);
  }

  /** Down then up restores the NMS threshold above its lower bound. */
  lemma NmsDownUp(s: Thresholds)
    requires Inv(s) && s.nmsTenths > NmsLow
    ensures IncreaseNms(DecreaseNms(s).state).state == s
  {
    ThresholdsMatchEntries(s);
    var m: nat := s.nmsTenths - 1;
    var down := DecreaseNms(s).state;
    assert down.nmsTenths == m && down.nmsText == FormatTenths(m);
    FormatParseRoundTrip(m);
    assert ParseTenths(down.nmsText) == Some(m);
    var up := IncreaseNms(down).state;
    assert up.nmsTenths == m + 1;
    assert up.nmsText == FormatTenths(m + 1);
  }

  /** A session of presses from the initial state: the final state, with
      every callback fired along the way, in order. */
  method Run(presses: seq<Button>) returns (s: Thresholds, notices: seq<Notice>)
    ensures Inv(s)
    ensures 5.0 <= GetThresholds(s).0 * 10.0 <= 9.0
    ensures 1.0 <= GetThresholds(s).1 * 10.0 <= 9.0
    ensures |notices| <= |presses|
    ensures presses == [] ==> s == Init() && notices == []
  {
    s := Init();
    InitInv();
    notices := [];
    var i := 0;
    while i < |presses|
      invariant 0 <= i <= |presses|
      invariant Inv(s)
      invariant |notices| <= i
      invariant i == 0 ==> s == Init() && notices == []
    {
      PressPreservesInv(s, presses[i]);
      var r := Press(s, presses[i]);
      s := r.state;
      if r.notice.Some? {
        notices := notices + [r.notice.value];
      }
      i := i + 1;
    }
  }
}
